=== FILE: README.md ===
# Sentence compression: data preparation, in Dafny

This project models the data path of a sentence-compression system that
learns, from a corpus of dependency-parsed sentences and their gold
compressions, which words to keep. It covers the following steps:

- **Preprocessing** (module `Preprocess`). For each corpus record:
  - the word table of the source tree (`create_word_dict`);
  - one (form, tag, label) segment per tree edge (`create_word_segments`);
  - the line written to the word, tag or label file (`write_data`);
  - the line written to the gold-compression file (`generate_labels`).
- **Reading** (module `Tokenize`). The per-line transformation of
  `read_file` (`Tokenize.ReadLine`, applied to every line by
  `Tokenize.ReadFile`):
  - the newline becomes the `<eos>` marker, and a `<bos>` marker is prepended;
  - the line is optionally lowercased;
  - tokens holding a digit are optionally replaced by `##`
    (`Tokenize.ReplaceNumbers`, which rewrites every maximal run of
    non-whitespace that holds a digit, as the pattern `\S*\d+\S*` does);
  - the line is split on whitespace.
- **Encoding** (module `Prepare`):
  - the dimension check;
  - the word vocabulary (the 50000 most frequent words) and the tag and label sets;
  - the dense 1-based dictionaries;
  - the per-sentence encoding into ids, where id |V| + 1 marks a word outside the vocabulary (`Prepare.EncodeWord`);
  - `prepare_data`, which chains these steps.
- **Alignment** (module `Align`). `create_target_mapping` builds the
  training target. Each tokenized sentence is walked against the source
  tree's word ids. A slot holds the word's id when the compression keeps
  the word, and 0 when it drops it. The `<bos>` slot, the penultimate slot
  and the `<eos>` slot are always filled. One record's iteration is
  `Align.TargetOf`.
- **Inference-time encoder** (module `Backend`). This is the encoder of the
  web service. It differs from the training encoder in one way: a
  dependency label missing from the label dictionary goes through a fixed
  renaming table. If the table does not know the label either, it becomes
  `nn`, and the unknown label is printed. Printed lines are modelled as a
  log; `Backend.RunLogged` runs the steps in order and stops at the first
  failure, keeping what was printed up to it.
- **Parser output formatting** (module `Parser`):
  - the tag list, taken from the tagger's (word, tag) pairs (`format_pos`);
  - the label list, taken from the dependency triples after a stable sort by dependent index (`format_dep_parse`).

Shared pieces live in module `Results` and module `Seqs`:

- `Results`:
  - a `Result` type whose error cases stand for the exceptions of the code: a missing dictionary key, a missing word id, a missing line, and an index out of range;
  - Python's negative indexing (`At`);
  - "run steps in order, stop at the first failure" (`AllOk`).
- `Seqs`:
  - first-seen deduplication (`Distinct`), which models dict key order;
  - Python's `s[:n]`, including negative `n` (`SliceTo`);
  - a stable insertion sort (`SortBy`), with the proof that it is the unique stable sort.

Error paths follow the code's exceptions. A lookup of a key that is not
present is an `Err`, never a precondition, and so is an index past the end.
Short sentences keep Python's semantics: `sent[-2]` on a two-token sentence
is its first token, and `ids[:len(sent) - 3]` with a negative bound drops
elements from the end. Neither case is excluded by a precondition.

The central property is `Align.AlignedSlotsMatchEncoder`. The aligner does
not copy the encoder's ids: it encodes each kept word again. Take a sentence
of at least three tokens that the encoder accepts (`EncodeSentence` returns
`Ok`), with the word dictionary built from the vocabulary. For such a
sentence the two encodings agree at every kept slot, and the alignment
succeeds exactly when the first and last tokens are in the vocabulary.
Shorter sentences fall outside the lemma. A one-token sentence always
fails: at the lookup of its first token, in the walk when it reaches
`sent[1]`, or at `sent[-2]`. `Align.TargetsMatchEncodedWords`
lifts this to the whole corpus.

The code and its documentation differ in one place, and the model follows
the code. The docstring of `create_target_mapping` says the target has the
same dimensionality as the encoded sentence. For an n-token sentence with
n >= 3, the code produces min(|word ids|, n - 3) + 3 slots. That equals n
only when the tree has at least n - 3 word ids after the root entry
(`Align.AlignedLengthIsSentenceLength`). A two-token sentence that aligns
gets a row longer than the sentence, and a one-token sentence fails.

## Model

| member | source | states |
|---|---|---|
| Tokenize.ReadLineStartsWithBos | preprocessing/prepare.py:82-88 | Every line read, with any flags, yields at least one token, and the first is `<bos>`. This assumes lowercasing leaves the marker characters and whitespace alone. |
| Tokenize.ReadLineEndsWithEos | preprocessing/prepare.py:82-88 | A line whose text ends in whitespace before its newline yields a last token of exactly `<eos>`. |
| Tokenize.ReadLineGluesEos | preprocessing/prepare.py:82-88 | Without whitespace before the newline, the marker is glued to the last word. With both flags off, a line made of a body that is empty or ends in whitespace, then a word `w`, then the newline, reads as `<bos>`, the body's words, then `w<eos>`. |
| Tokenize.ReadFile | preprocessing/prepare.py:79-89 | One token list per line of the file, in file order; each line is read on its own, with the same flags. |
| Tokenize.ReadFileMarksEveryLine | preprocessing/prepare.py:81-88 | Every line of a file read, one token list per line, starts with `<bos>`. |
| Tokenize.ReadLineReplacesNumbers | preprocessing/prepare.py:86-88 | With `replace_int`, the tokens are the same in number as without it. Each token holding a digit becomes `##`, every other token is unchanged, and no token keeps a digit. |
| Tokenize.ReplaceNumbersByToken | preprocessing/prepare.py:87-88 | Substituting `\S*\d+\S*` by `##` and then splitting gives the same result as splitting and then replacing every digit-bearing token by `##`. |
| Tokenize.SplitYieldsTokens | preprocessing/prepare.py:88 | Every piece that `str.split()` returns is non-empty and free of whitespace. |
| Tokenize.WriteThenReadLine | preprocessing/preprocess.py:144-157 | Consider a line written from fields free of whitespace, read back without lowercasing or substitution. It reads back as `<bos>`, then the selected fields in order, then `<eos>`: 2 + (number of set flags) × (number of segments) tokens. |
| Tokenize.WriteThenReadForms | preprocessing/preprocess.py:144-157 | A word-only line reads back as the segments' forms between the two markers. |
| Preprocess.CreateWordDict | preprocessing/preprocess.py:87-94 | The keys are duplicate-free, and they are exactly the ids listed in the tree's nodes, ordered by first listing. Each id maps to the form and tag of its last listing. |
| Preprocess.WordDictOfLastWins | preprocessing/preprocess.py:88-93 | When an id is listed more than once, the table keeps the form and tag of its last listing. |
| Preprocess.CreateWordSegments | preprocessing/preprocess.py:115-120 | The call succeeds iff every edge's child id is in the word table. On success it returns one segment per edge, in edge order: the child's form and tag, then the edge's label. Otherwise the error names the first missing child id. |
| Preprocess.WriteLine | preprocessing/preprocess.py:144-157 | A written line always ends in a newline. With no field selected, it is only the newline. |
| Preprocess.WriteLineLaysOutFields | preprocessing/preprocess.py:145-157 | The line is the selected fields, each followed by one space, then a newline. Fields appear in word, tag, label order within a segment, and segments appear in order. There are (number of set flags) × (number of segments) fields. |
| Preprocess.SelectedFieldsCount | preprocessing/preprocess.py:145-152 | Each segment contributes one field per set flag. |
| Preprocess.GenerateLabel | preprocessing/preprocess.py:53-55 | The line is the compression text without its last character, then " . " and a newline. It is 4 characters longer than the shortened text, and an empty text gives " . \n". |
| Tokenize.ReadLabelLine | preprocessing/preprocess.py:53-55 | A label line, read back without lowercasing or substitution, is `<bos>`, the words of the shortened compression text, `.`, and `<eos>`. |
| Prepare.VerifyDimensions | preprocessing/prepare.py:104-111 | `verify_dimensions` returns true iff every zipped sentence triple has three equal lengths. Sentences beyond the shortest list are never examined. |
| Prepare.VerifyDimensionsIgnoresExtra | preprocessing/prepare.py:104-111 | Appending sentences to the word list, once it is at least as long as the tag list, does not change the verdict: the extra sentences have no partner to be zipped with. |
| Prepare.VerifiedZipIsExact | preprocessing/prepare.py:104-111 | After a passing check, zipping a sentence loses no word, tag or label. |
| Prepare.CreateMapping | preprocessing/prepare.py:126-129 | The keys are exactly the elements of the sequence. Every id lies in 1..n and points back to an occurrence of its element, so 0 is never an id. |
| Prepare.CreateMappingKeepsLast | preprocessing/prepare.py:126-129 | A repeated element's id is beyond every one of its occurrences, so the last occurrence wins. |
| Prepare.CreateMappingDense | preprocessing/prepare.py:126-129 | On a duplicate-free sequence, element i gets exactly i + 1, and distinct elements get distinct ids. |
| Prepare.MostCommon | preprocessing/prepare.py:154-155 | The result has at most n words, without duplicates, all from the bag, in non-increasing frequency. No word left out is more frequent than a word kept. A word is left out only when n words were kept. |
| Prepare.CreateVocabulary | preprocessing/prepare.py:146-156 | The vocabulary has at most 50000 most-frequent zipped words, without duplicates, in non-increasing frequency. No word left out is more frequent than a word kept, and a word is left out only when 50000 words are kept. The tag and label sets are exactly the tags and labels at zipped positions. |
| Prepare.EncodeWord | preprocessing/prepare.py:189-192 | A word outside the vocabulary gets the reserved id \|V\| + 1 without consulting the dictionary. A word in the vocabulary is looked up, and a missing key is an error. |
| Prepare.EncodeWordWithMapping | preprocessing/prepare.py:189-192 | With the dictionary built from the vocabulary, encoding a word never fails, and the id lies in 1..\|V\| + 1. The id is \|V\| + 1 iff the word is outside the vocabulary, and a known word is recovered from its id. |
| Prepare.EncodeToken | preprocessing/prepare.py:188-194 | A token encodes iff its word encodes and its tag and label are in their dictionaries. The ids are those three lookups. A failure names the word, tag or label, in that order of checking. |
| Prepare.EncodeSentence | preprocessing/prepare.py:184-198 | A sentence encodes iff every token does, into three id lists as long as the sentence and pointwise equal to the token lookups. A failure is the first failing token's. |
| Prepare.CreateSeqMappings | preprocessing/prepare.py:184-200 | The corpus encodes iff every zipped sentence does. Sentences are encoded in order, one result per sentence, and a failure is the first failing sentence's. |
| Prepare.CreateSeqMappingsPointwise | preprocessing/prepare.py:184-200 | One result per zipped sentence. Position j of sentence i holds the ids of the word, tag and label at (i, j), and the tag and label are in their dictionaries. |
| Prepare.EncodedSentenceInRange | preprocessing/prepare.py:184-198 | With dictionaries built by `create_mapping`, word ids lie in 1..\|V\| + 1, with \|V\| + 1 exactly for unknown words. Tag and label ids lie in 1..(number of tags) and 1..(number of labels). |
| Prepare.PrepareData | preprocessing/prepare.py:37-61 | Preparation succeeds iff the dimension check passes, and otherwise reports the mismatch. On success the dictionaries are `create_mapping` of the vocabulary, of the tag order and of the label order. The sentences are exactly what `create_seq_mappings` returns with those dictionaries: three id lists per zipped sentence, as long as the sentence and within their dictionaries' ranges. The vocabulary holds at most 50000 words. |
| Prepare.PreparedEncodingSucceeds | preprocessing/prepare.py:42-54 | With dictionaries built from the corpus's own vocabulary, tag set and label set, no lookup in the encoder fails. |
| Prepare.PreparedIdsInRange | preprocessing/prepare.py:42-54 | Every id of a prepared sentence lies in its dictionary's range. |
| Align.GetCompressionWordIds | preprocessing/prepare.py:288-292 | One id per compression edge, in edge order. An id is returned iff some compression edge has it as child. |
| Align.WalkSlots | preprocessing/prepare.py:250-259 | Walked id j pairs with token j + 1. When the walk is shorter than the sentence, the walk succeeds iff every kept word encodes. A kept word's slot holds its encoding and a dropped word's slot is 0. A non-empty walk at least as long as the sentence runs off its end and fails. |
| Align.AlignSentence | preprocessing/prepare.py:238-268 | Take n ≥ 3 tokens and m = min(\|ids\|, n - 3) walked ids. The alignment succeeds iff `<bos>`, each kept word, the penultimate word and `<eos>` all encode. The row has m + 3 slots: `<bos>`, m walk slots, penultimate, `<eos>`. An empty sentence fails on its first index, a one-token sentence always fails, and a two-token row is longer than its sentence. |
| Align.AlignedLengthIsSentenceLength | preprocessing/prepare.py:250-268 | With at least n - 3 tree word ids, the target row has exactly the sentence's n slots. |
| Align.AlignedSlotsMatchEncoder | preprocessing/prepare.py:250-256 | Take a sentence of at least three tokens that the encoder accepts (lines 189-192), with the word dictionary built from the vocabulary. The aligner's re-encoding of each kept word equals the encoder's id for the token at that index, and is never 0. Boundary and penultimate slots equal the encoder's ids, and the alignment succeeds iff the first and last tokens are in the vocabulary. |
| Align.AlignAgainstEncoding | preprocessing/prepare.py:241-268 | The same agreement, stated over a sentence and its encoded word ids. |
| Align.CreateTargetMapping | preprocessing/prepare.py:223-272 | Record j is aligned against tokenized line j. The call fails when there are more records than lines; otherwise it succeeds iff every record aligns, with one row per record equal to that record's alignment. On failure the error is that of the first record that fails; a missing line is reported only when every earlier record aligned. |
| Align.TargetsMatchEncodedWords | preprocessing/prepare.py:221-272 | Take a corpus that passes the dimension check and both encodes and aligns. The target row of every record whose line has at least three tokens matches the encoder's word ids for that line, slot by slot. |
| Align.PreparedTargetsMatch | preprocessing/prepare.py:221-272 | For a corpus that `prepare_data` accepts and that aligns, every target row of a line with at least three tokens matches, slot by slot, that line's word ids from `prepare_data`. |
| Backend.RunLogged | backend/prepare.py:47-72 | The steps run in order and stop at the first failure, whose error is the result, as `AllOk` gives it. On success the output is every step's printed lines, in order. Steps that print nothing leave the output empty. |
| Backend.ResolveLabel | backend/prepare.py:60-67 | A label in the dictionary gets its own id. A label in the renaming table gets its target's id. Any other label gets the id of `nn` and is reported. |
| Backend.ResolveLabelTotal | backend/prepare.py:7-19 | When the dictionary holds `nn` and every renaming target, every label resolves to an id of the dictionary. Exactly the labels unknown to both the dictionary and the table are reported, and one renaming step suffices, since no target is itself renamed. |
| Backend.EncodeToken | backend/prepare.py:52-67 | A token encodes iff its word encodes, its tag is known and its label resolves. The ids are those of the training encoder, except the label, which goes through the fallback. The unknown label is printed once the word and tag have succeeded. |
| Backend.EncodeTokenAgrees | backend/prepare.py:52-67 | A token whose label the dictionary knows is encoded exactly as in training, and nothing is printed. |
| Backend.EncodeSentence | backend/prepare.py:48-71 | A sentence encodes iff every token does, into three id lists as long as the sentence. On success the printed lines are exactly the reported labels, in order. |
| Backend.CreateSeqMappings | backend/prepare.py:47-72 | The corpus encodes iff every zipped sentence does, and each result is that sentence's encoding. On success the printed lines are the labels each sentence reports, sentence after sentence. |
| Backend.EncodeSentenceAgrees | backend/prepare.py:48-71 | A sentence whose labels the dictionary all knows encodes exactly as in training, and nothing is printed. |
| Backend.BackendAgreesWithTraining | backend/prepare.py:22-72 | When every zipped label is in the dictionary, the inference-time encoder returns what the training encoder returns and prints nothing. |
| Parser.FormatPos | backend/parser.py:25-29 | One tag per pair, in order. |
| Parser.FormatPosZipsBack | backend/parser.py:25-29 | Zipping the words with the formatted tags gives back the tagger's pairs, so the i-th tag belongs to the i-th word. |
| Parser.FormatDepParse | backend/parser.py:31-36 | One label per triple, and the labels form the same multiset as the parse's. They are in the order of a stable sort of the triples by dependent index. |
| Parser.FormatDepParseIsAnyStableSort | backend/parser.py:31-36 | Any stable sort of the triples by dependent index yields the same labels. |
| Parser.LabelsInWordOrder | backend/parser.py:31-36 | For a parse whose dependents are the word positions 1..n, each once, position k - 1 of the result holds the label of word k. |
| Seqs.SortByIsStable | backend/parser.py:32 | The insertion sort that models `list.sort(key=...)` returns a sequence sorted by key whose elements of each key are exactly the input's elements of that key, in input order. |
| Seqs.StableSortIsUnique | backend/parser.py:32 | Two sequences sorted by the same key that hold, key by key, the same elements in the same order are equal; so the stable sort is unique. |
| Seqs.DistinctKeepsFirstSeenOrder | preprocessing/preprocess.py:88-93 | Deduplication, which models a dict's key order, lists the distinct elements ordered by their first occurrence. |

## Left out

- File and JSON I/O (`open`, `json.load`, `read_data`, `preprocess_data`'s file loop, the `__main__` drivers). Every operation takes the already-read lines, token lists or records as values, and a corpus spread over several JSON files is the concatenation of their records.
- The labels file that `create_target_mapping` reads at line 222 is never used afterwards, so the model does not read it.
- `prepare_data` reads the three files with `read_file`; `Prepare.PrepareData` takes the three token-list sequences `read_file` would return. The code returns `False` on a dimension mismatch; the model returns an error value instead.
- Tokenize.ReadLineStartsWithBos: Python's `str.lower` is a parameter (`lower`), of which the model assumes only that it keeps whitespace and the marker characters, so it does not model Unicode case mapping, including mappings that change a string's length.
- Tokenize.ReplaceNumbersByToken: `\d` is modelled as the ASCII digits 0-9, not every Unicode decimal digit Python's `re` accepts.
- Prepare.PrepareData: the tag and label dictionaries are built from an enumeration of the tag and label sets passed as a parameter, because Python's set iteration order is unspecified. The model proves properties that hold for every order.
- Prepare.MostCommon: the contract does not state the order among words of equal frequency. `FreqDist.most_common` breaks such ties by first-seen order, and so does the model's body.
- Printing is modelled as a list of printed lines (`Backend.Logged`). Backend.CreateSeqMappings: the printed lines are stated only for a run that succeeds. A failing run prints the labels reported by every token that ran. That includes the failing token's own label when the failure is the lookup of `nn` that follows the print. The contract does not state these lines.
- Parser.FormatDepParse: `list.sort` sorts the caller's list in place; the model returns the labels and leaves the argument unchanged.
- Align.AlignSentence: for one- and two-token sentences the contract states only failure, or the row being longer than the sentence, rather than the slot values.
- The parser service (`backend/parser.py`'s client class), the neural encoder and its training (`backend/encoder.py`), `backend/utils.py`, the web applications and the frontend are not part of this model. They are I/O, network calls or numeric model code outside the data preparation.

=== FILE: align.dfy ===
/** The target side of training: for each corpus record, the tokenized
    sentence is walked against the source tree's word ids; a slot holds the
    word's id when the compression keeps that word and 0 when it drops it.
    The boundary and penultimate slots are always filled. */
module Align {
  import opened Results
  import opened Seqs
  import opened Preprocess
  import opened Prepare

  /** `get_compression_word_ids`: the child id of every compression edge, in
      edge order. */
  function GetCompressionWordIds(c: Compression): (ids: seq<int>)
    ensures |ids| == |c.edges|
    ensures forall i | 0 <= i < |ids| :: ids[i] == c.edges[i].childId
    ensures forall id :: id in ids <==> exists e | e in c.edges :: e.childId == id
  {
    seq(|c.edges|, i requires 0 <= i < |c.edges| => c.edges[i].childId)
  }

  /** `list(word_dict.keys())[1:]`: the tree's word ids after the root entry. */
  function SentenceWordIds(keys: seq<int>): (ids: seq<int>)
  {
    if |keys| == 0 then [] else keys[1..]
  }

  /** One step of the walk: the word at `wordIndex` is read, then encoded
      when the compression keeps `wordId`, otherwise the slot is 0. */
  function Slot(wordId: int, kept: seq<int>, sent: seq<string>, wordIndex: int,
                vocab: seq<string>, word2id: map<string, int>): Result<int>
  {
    var word :- At(sent, wordIndex);
    if wordId in kept then EncodeWord(vocab, word2id, word) else Ok(0)
  }

  /** The inner loop of `create_target_mapping`: walked id j is paired with
      token j + 1, the first failure stops it, and a walk as long as the
      sentence runs off its end. */
  function WalkSlots(walk: seq<int>, kept: seq<int>, sent: seq<string>,
                     vocab: seq<string>, word2id: map<string, int>): (r: Result<seq<int>>)
    ensures |walk| < |sent| ==>
      (r.Ok? <==> forall j | 0 <= j < |walk| :: walk[j] in kept ==> EncodeWord(vocab, word2id, sent[j + 1]).Ok?)
    ensures |walk| < |sent| && r.Ok? ==> |r.value| == |walk| && forall j | 0 <= j < |walk| ::
      r.value[j] == if walk[j] in kept then EncodeWord(vocab, word2id, sent[j + 1]).value else 0
    ensures 0 < |walk| && |sent| <= |walk| ==> r.Err?
  {
    var steps := seq(|walk|, j requires 0 <= j < |walk| => Slot(walk[j], kept, sent, j + 1, vocab, word2id));
    assert forall j | 0 <= j < |walk| :: steps[j] == Slot(walk[j], kept, sent, j + 1, vocab, word2id);
    assert 0 < |walk| && |sent| <= |walk| ==> steps[if |sent| == 0 then 0 else |sent| - 1].Err?;
    AllOk(steps)
  }

  /** The per-sentence body of `create_target_mapping`, with Python's
      indexing and slicing: `sent[-2]` and `sent[-1]` count from the end and
      `ids[:len(sent) - 3]` drops elements from the end when the sentence has
      fewer than three tokens. */
  function AlignSentence(keys: seq<int>, kept: seq<int>, sent: seq<string>,
                         vocab: seq<string>, word2id: map<string, int>): (r: Result<seq<int>>)
    ensures |sent| == 0 ==> r == Err(IndexOutOfRange(0))
    ensures |sent| == 1 ==> r.Err?
    ensures |sent| == 2 && r.Ok? ==> |r.value| > |sent|
    ensures |sent| >= 3 ==>
      var n := |sent|;
      var ids := SentenceWordIds(keys);
      var m := Min(|ids|, n - 3);
      r.Ok? <==>
        && sent[0] in word2id
        && (forall j | 0 <= j < m :: ids[j] in kept ==> EncodeWord(vocab, word2id, sent[j + 1]).Ok?)
        && EncodeWord(vocab, word2id, sent[n - 2]).Ok?
        && sent[n - 1] in word2id
    ensures |sent| >= 3 && r.Ok? ==>
      var n := |sent|;
      var ids := SentenceWordIds(keys);
      var m := Min(|ids|, n - 3);
      && |r.value| == m + 3
      && r.value[0] == word2id[sent[0]]
      && (forall j | 0 <= j < m ::
            r.value[j + 1] == if ids[j] in kept then EncodeWord(vocab, word2id, sent[j + 1]).value else 0)
      && r.value[m + 1] == EncodeWord(vocab, word2id, sent[n - 2]).value
      && r.value[m + 2] == word2id[sent[n - 1]]
  {
    var first :- At(sent, 0);
    var firstId :- Lookup(word2id, first);
    var walk := SliceTo(SentenceWordIds(keys), |sent| - 3);
    var middle :- WalkSlots(walk, kept, sent, vocab, word2id);
    var penult :- At(sent, -2);
    var penultId :- EncodeWord(vocab, word2id, penult);
    // `sent[-2]` succeeded, so `sent[-1]` cannot fail
    var lastId :- Lookup(word2id, sent[|sent| - 1]);
    Ok([firstId] + middle + [penultId, lastId])
  }

  /** With at least as many tree words as middle slots, the target row has
      the sentence's length. */
  lemma AlignedLengthIsSentenceLength(keys: seq<int>, kept: seq<int>, sent: seq<string>,
                                      vocab: seq<string>, word2id: map<string, int>)
    requires |sent| >= 3 && |SentenceWordIds(keys)| >= |sent| - 3
    ensures AlignSentence(keys, kept, sent, vocab, word2id).Ok? ==>
      |AlignSentence(keys, kept, sent, vocab, word2id).value| == |sent|
  {
  }

  /** Target row `t` agrees with the encoder's word ids `e` of the same
      sentence: its length is that of the walk plus three, the boundary and
      penultimate slots hold the encoder's ids, a kept word's slot holds the
      encoder's id for the token at that index and is never 0, a dropped
      word's slot is 0, and the boundary slots are never 0. */
  predicate MatchesEncoding(t: seq<int>, e: seq<int>, ids: seq<int>, kept: seq<int>) {
    var n := |e|;
    && n >= 3
    && |t| == Min(|ids|, n - 3) + 3
    && t[0] == e[0]
    && (forall k | 0 <= k < |t| - 3 ::
          && (ids[k] in kept ==> t[k + 1] == e[k + 1] && t[k + 1] != 0)
          && (ids[k] !in kept ==> t[k + 1] == 0))
    && t[|t| - 2] == e[n - 2]
    && t[|t| - 1] == e[n - 1]
    && t[0] != 0 && t[|t| - 1] != 0
  }

  /** The aligner re-encodes each kept word rather than copying the
      encoder's id; with the dictionary built from the vocabulary the two
      agree, and the alignment succeeds exactly when the first and last
      tokens are in the vocabulary. */
  lemma AlignedSlotsMatchEncoder(keys: seq<int>, kept: seq<int>, toks: seq<Token>, d: Dictionaries)
    requires |toks| >= 3
    requires d.word2id == CreateMapping(d.vocab)
    requires EncodeSentence(toks, d).Ok?
    ensures var sent := Words(toks);
      AlignSentence(keys, kept, sent, d.vocab, d.word2id).Ok? <==> sent[0] in d.vocab && sent[|sent| - 1] in d.vocab
    ensures var t := AlignSentence(keys, kept, Words(toks), d.vocab, d.word2id);
      t.Ok? ==> MatchesEncoding(t.value, EncodeSentence(toks, d).value.words, SentenceWordIds(keys), kept)
  {
    SentenceWordsEncode(toks, d);
    AlignAgainstEncoding(keys, kept, Words(toks), EncodeSentence(toks, d).value.words, d.vocab, d.word2id);
  }

  /** Encoding a sentence encodes each of its words in turn. */
  lemma SentenceWordsEncode(toks: seq<Token>, d: Dictionaries)
    requires EncodeSentence(toks, d).Ok?
    ensures forall i | 0 <= i < |toks| ::
      EncodeWord(d.vocab, d.word2id, Words(toks)[i]) == Ok(EncodeSentence(toks, d).value.words[i])
  {
    forall i | 0 <= i < |toks|
      ensures EncodeWord(d.vocab, d.word2id, Words(toks)[i]) == Ok(EncodeSentence(toks, d).value.words[i])
    {
      assert EncodeToken(toks[i], d).Ok?;
    }
  }

  /** `AlignedSlotsMatchEncoder` over a plain sentence and its encoded ids. */
  lemma AlignAgainstEncoding(keys: seq<int>, kept: seq<int>, sent: seq<string>, e: seq<int>,
                              vocab: seq<string>, word2id: map<string, int>)
    requires word2id == CreateMapping(vocab)
    requires |sent| >= 3 && |e| == |sent|
    requires forall i | 0 <= i < |sent| :: EncodeWord(vocab, word2id, sent[i]) == Ok(e[i])
    ensures AlignSentence(keys, kept, sent, vocab, word2id).Ok? <==>
      sent[0] in vocab && sent[|sent| - 1] in vocab
    ensures var t := AlignSentence(keys, kept, sent, vocab, word2id);
      t.Ok? ==> MatchesEncoding(t.value, e, SentenceWordIds(keys), kept)
  {
    EncodedIdsPositive(vocab, sent, e);
    var t := AlignSentence(keys, kept, sent, vocab, word2id);
    if t.Ok? {
      SlotsAgree(t.value, e, sent, SentenceWordIds(keys), kept, vocab, word2id);
    }
  }

  /** With the dictionary built from the vocabulary, every encoded word id is
      at least 1. */
  lemma EncodedIdsPositive(vocab: seq<string>, sent: seq<string>, e: seq<int>)
    requires |e| == |sent|
    requires forall i | 0 <= i < |sent| :: EncodeWord(vocab, CreateMapping(vocab), sent[i]) == Ok(e[i])
    ensures forall i | 0 <= i < |sent| :: 1 <= e[i]
  {
    forall i | 0 <= i < |sent| ensures 1 <= e[i] {
      EncodeWordWithMapping(vocab, sent[i]);
    }
  }

  /** The slot-by-slot comparison behind `AlignedSlotsMatchEncoder`, over
      plain sequences. */
  lemma SlotsAgree(t: seq<int>, e: seq<int>, sent: seq<string>, ids: seq<int>, kept: seq<int>,
                   vocab: seq<string>, word2id: map<string, int>)
    requires |sent| >= 3 && |e| == |sent|
    requires forall i | 0 <= i < |sent| :: EncodeWord(vocab, word2id, sent[i]) == Ok(e[i]) && 1 <= e[i]
    requires sent[0] in vocab && sent[|sent| - 1] in vocab
    requires var n := |sent|;
      var m := Min(|ids|, n - 3);
      && |t| == m + 3
      && sent[0] in word2id && t[0] == word2id[sent[0]]
      && (forall j | 0 <= j < m ::
            t[j + 1] == if ids[j] in kept then EncodeWord(vocab, word2id, sent[j + 1]).value else 0)
      && t[m + 1] == EncodeWord(vocab, word2id, sent[n - 2]).value
      && sent[n - 1] in word2id && t[m + 2] == word2id[sent[n - 1]]
    ensures MatchesEncoding(t, e, ids, kept)
  {
    var n := |sent|;
    assert EncodeWord(vocab, word2id, sent[0]) == Ok(e[0]);
    assert EncodeWord(vocab, word2id, sent[n - 1]) == Ok(e[n - 1]);
  }

  /** One iteration of the record loop of `create_target_mapping`: the
      record's word-dict keys and kept ids, and the tokenized line of the
      same index. */
  function TargetOf(rec: Record, j: nat, wordSeq: seq<seq<string>>,
                    vocab: seq<string>, word2id: map<string, int>): Result<seq<int>>
  {
    var keys := CreateWordDict(rec).keys;
    var kept := GetCompressionWordIds(rec.compression);
    var sent :- if j < |wordSeq| then Ok(wordSeq[j]) else Err(MissingLine(j));
    AlignSentence(keys, kept, sent, vocab, word2id)
  }

  /** `create_target_mapping` over the records of all files in order:
      record j is aligned against tokenized line j. */
  function CreateTargetMapping(records: seq<Record>, wordSeq: seq<seq<string>>,
                               vocab: seq<string>, word2id: map<string, int>): (r: Result<seq<seq<int>>>)
    ensures |records| > |wordSeq| ==> r.Err?
    ensures r.Ok? <==> |records| <= |wordSeq| && forall j | 0 <= j < |records| ::
      AlignSentence(CreateWordDict(records[j]).keys, GetCompressionWordIds(records[j].compression),
                    wordSeq[j], vocab, word2id).Ok?
    ensures r.Ok? ==> |r.value| == |records| && forall j | 0 <= j < |records| ::
      Ok(r.value[j]) == AlignSentence(CreateWordDict(records[j]).keys, GetCompressionWordIds(records[j].compression),
                                      wordSeq[j], vocab, word2id)
    ensures r.Err? ==> exists j | 0 <= j < |records| ::
      && TargetOf(records[j], j, wordSeq, vocab, word2id) == Err(r.error)
      && forall i | 0 <= i < j :: TargetOf(records[i], i, wordSeq, vocab, word2id).Ok?
  {
    var steps := seq(|records|, j requires 0 <= j < |records| => TargetOf(records[j], j, wordSeq, vocab, word2id));
    assert forall j | 0 <= j < |records| :: steps[j] == TargetOf(records[j], j, wordSeq, vocab, word2id);
    assert |records| > |wordSeq| ==> steps[|wordSeq|].Err?;
    AllOk(steps)
  }

  /** Across the corpus, the targets agree with the encoded word ids: every
      record whose line has at least three tokens gets a target row that
      `MatchesEncoding` the encoder's ids for that line. */
  lemma TargetsMatchEncodedWords(records: seq<Record>, ws: seq<seq<string>>, ps: seq<seq<string>>,
                                 ds: seq<seq<string>>, d: Dictionaries)
    requires d.word2id == CreateMapping(d.vocab)
    requires VerifyDimensions(ws, ps, ds)
    requires CreateSeqMappings(ws, ps, ds, d).Ok?
    requires CreateTargetMapping(records, ws, d.vocab, d.word2id).Ok?
    ensures var ts := CreateTargetMapping(records, ws, d.vocab, d.word2id).value;
      var es := CreateSeqMappings(ws, ps, ds, d).value;
      forall j | 0 <= j < |ts| && j < |es| && |ws[j]| >= 3 ::
        MatchesEncoding(ts[j], es[j].words, SentenceWordIds(CreateWordDict(records[j]).keys),
                        GetCompressionWordIds(records[j].compression))
  {
    var ts := CreateTargetMapping(records, ws, d.vocab, d.word2id).value;
    var es := CreateSeqMappings(ws, ps, ds, d).value;
    var z := ZipCorpus(ws, ps, ds);
    forall j | 0 <= j < |ts| && j < |es| && |ws[j]| >= 3
      ensures MatchesEncoding(ts[j], es[j].words, SentenceWordIds(CreateWordDict(records[j]).keys),
                              GetCompressionWordIds(records[j].compression))
    {
      assert |ws[j]| == |ps[j]| == |ds[j]|;
      ZipKeepsWords(ws[j], ps[j], ds[j]);
      AlignedSlotsMatchEncoder(CreateWordDict(records[j]).keys, GetCompressionWordIds(records[j].compression), z[j], d);
    }
  }

  /** The preparation step and the target builder fit together: for a
      corpus that prepares and aligns, every target row of a line with at
      least three tokens matches the prepared word ids of that line. */
  lemma PreparedTargetsMatch(records: seq<Record>, ws: seq<seq<string>>, ps: seq<seq<string>>,
                             ds: seq<seq<string>>, tagOrder: seq<string>, labelOrder: seq<string>)
    requires Enumerates(tagOrder, CreateVocabulary(ws, ps, ds).tags)
    requires Enumerates(labelOrder, CreateVocabulary(ws, ps, ds).labels)
    requires PrepareData(ws, ps, ds, tagOrder, labelOrder).Ok?
    requires var d := PrepareData(ws, ps, ds, tagOrder, labelOrder).value.dicts;
      CreateTargetMapping(records, ws, d.vocab, d.word2id).Ok?
    ensures var p := PrepareData(ws, ps, ds, tagOrder, labelOrder).value;
      var ts := CreateTargetMapping(records, ws, p.dicts.vocab, p.dicts.word2id).value;
      forall j | 0 <= j < |ts| && j < |p.sentences| && |ws[j]| >= 3 ::
        MatchesEncoding(ts[j], p.sentences[j].words, SentenceWordIds(CreateWordDict(records[j]).keys),
                        GetCompressionWordIds(records[j].compression))
  {
    var p := PrepareData(ws, ps, ds, tagOrder, labelOrder).value;
    TargetsMatchEncodedWords(records, ws, ps, ds, p.dicts);
  }
}

=== FILE: backend.dfy ===
/** The inference-time encoder (`backend/prepare.py`): the training
    encoder, except that a dependency label missing from the label
    dictionary is first translated through a fixed table of label renamings
    and otherwise replaced by the default label "nn", which is reported by
    printing the unknown label. */
module Backend {
  import opened Results
  import Prepare

  /** `other_dep_annotations`: labels of newer parsers mapped to the label
      the dictionary was trained with. */
  const OtherDepAnnotations: map<string, string> := map[
    "obj" := "iobj",
    "cop" := "conj",
    "compound" := "nn",
    "nummod" := "num",
    "punct" := "p",
    "nmod" := "pobj",
    "npmod" := "npadvmod",
    "acl" := "npadvmod",
    "case" := "prep",
    "relcl" := "rel",
    "oprd" := "pred"
  ]

  /** The label used when neither the dictionary nor the table knows one. */
  const DefaultLabel: string := "nn"

  /** A computation's outcome together with the lines it printed. */
  datatype Logged<T> = Logged(result: Result<T>, printed: seq<string>)

  /** A label's id, and whether the label was printed as unknown. */
  datatype LabelId = LabelId(id: Result<int>, reported: bool)

  /** The label branch of the loop body: the dictionary first, then the
      renaming table, then the default label. */
  function ResolveLabel(dep: string, dep2id: map<string, int>): (r: LabelId)
    ensures dep in dep2id ==> r == LabelId(Ok(dep2id[dep]), false)
    ensures dep !in dep2id && dep in OtherDepAnnotations ==>
      r == LabelId(Lookup(dep2id, OtherDepAnnotations[dep]), false)
    ensures dep !in dep2id && dep !in OtherDepAnnotations ==>
      r == LabelId(Lookup(dep2id, DefaultLabel), true)
  {
    if dep in dep2id then LabelId(Ok(dep2id[dep]), false)
    else if dep in OtherDepAnnotations then LabelId(Lookup(dep2id, OtherDepAnnotations[dep]), false)
    else LabelId(Lookup(dep2id, DefaultLabel), true)
  }

  /** When the dictionary holds every renaming target and the default label,
      every label resolves to an id of the dictionary, and exactly the labels
      known to neither the dictionary nor the table are reported. One
      renaming step suffices: no target of the table is itself renamed. */
  lemma ResolveLabelTotal(dep: string, dep2id: map<string, int>)
    requires DefaultLabel in dep2id
    requires forall k | k in OtherDepAnnotations :: OtherDepAnnotations[k] in dep2id
    ensures var r := ResolveLabel(dep, dep2id);
      && r.id.Ok?
      && r.id.value in dep2id.Values
      && (r.reported <==> dep !in dep2id && dep !in OtherDepAnnotations)
    ensures forall k | k in OtherDepAnnotations :: OtherDepAnnotations[k] !in OtherDepAnnotations
  {
    var r := ResolveLabel(dep, dep2id);
    if dep in dep2id {
      assert r.id.value == dep2id[dep];
    } else if dep in OtherDepAnnotations {
      assert r.id.value == dep2id[OtherDepAnnotations[dep]];
    } else {
      assert r.id.value == dep2id[DefaultLabel];
    }
  }

  /** One loop step of the backend `create_seq_mappings`: word, tag, then the
      label with its fallback; the unknown label is printed before its
      default id is looked up. */
  function EncodeToken(t: Prepare.Token, d: Prepare.Dictionaries): (r: Logged<Prepare.TokenIds>)
    ensures r.result.Ok? <==>
      && Prepare.EncodeWord(d.vocab, d.word2id, t.word).Ok?
      && t.tag in d.pos2id
      && ResolveLabel(t.dep, d.dep2id).id.Ok?
    ensures r.result.Ok? ==> r.result.value == Prepare.TokenIds(
      Prepare.EncodeWord(d.vocab, d.word2id, t.word).value, d.pos2id[t.tag], ResolveLabel(t.dep, d.dep2id).id.value)
    ensures r.printed == if Prepare.EncodeWord(d.vocab, d.word2id, t.word).Ok? && t.tag in d.pos2id
                            && ResolveLabel(t.dep, d.dep2id).reported then [t.dep] else []
  {
    match Prepare.EncodeWord(d.vocab, d.word2id, t.word)
    case Err(e) => Logged(Err(e), [])
    case Ok(w) =>
      if t.tag !in d.pos2id then Logged(Err(MissingKey(t.tag)), [])
      else
        var l := ResolveLabel(t.dep, d.dep2id);
        Logged(if l.id.Ok? then Ok(Prepare.TokenIds(w, d.pos2id[t.tag], l.id.value)) else Err(l.id.error),
               if l.reported then [t.dep] else [])
  }

  /** A token whose label the dictionary knows is encoded as the training
      encoder does, and nothing is printed. */
  lemma EncodeTokenAgrees(t: Prepare.Token, d: Prepare.Dictionaries)
    requires t.dep in d.dep2id
    ensures EncodeToken(t, d) == Logged(Prepare.EncodeToken(t, d), [])
  {
  }

  function ResultsOf<T>(rs: seq<Logged<T>>): (r: seq<Result<T>>)
    ensures |r| == |rs|
    ensures forall i | 0 <= i < |rs| :: r[i] == rs[i].result
  {
    seq(|rs|, i requires 0 <= i < |rs| => rs[i].result)
  }

  /** Everything the steps print, in order. */
  function AllPrinted<T>(rs: seq<Logged<T>>): seq<string> {
    if |rs| == 0 then [] else rs[0].printed + AllPrinted(rs[1..])
  }

  /** Runs logged steps in order up to the first failure: the outcome is
      that of `AllOk`, and the output is what the steps that ran printed,
      which is everything when no step fails. */
  function RunLogged<T>(rs: seq<Logged<T>>): (r: Logged<seq<T>>)
    ensures r.result == AllOk(ResultsOf(rs))
    ensures r.result.Ok? ==> r.printed == AllPrinted(rs)
    ensures (forall i | 0 <= i < |rs| :: rs[i].printed == []) ==> r.printed == []
  {
    if |rs| == 0 then Logged(Ok([]), [])
    else if rs[0].result.Err? then Logged(Err(rs[0].result.error), rs[0].printed)
    else
      var rest := RunLogged(rs[1..]);
      assert ResultsOf(rs)[1..] == ResultsOf(rs[1..]);
      Logged(if rest.result.Ok? then Ok([rs[0].result.value] + rest.result.value) else Err(rest.result.error),
             rs[0].printed + rest.printed)
  }

  /** The labels of `toks` that the encoder reports, in order. */
  function Reported(toks: seq<Prepare.Token>, dep2id: map<string, int>): seq<string> {
    if |toks| == 0 then []
    else (if ResolveLabel(toks[0].dep, dep2id).reported then [toks[0].dep] else []) + Reported(toks[1..], dep2id)
  }

  function TokenSteps(toks: seq<Prepare.Token>, d: Prepare.Dictionaries): (rs: seq<Logged<Prepare.TokenIds>>)
    ensures |rs| == |toks|
    ensures forall i | 0 <= i < |toks| :: rs[i] == EncodeToken(toks[i], d)
  {
    seq(|toks|, i requires 0 <= i < |toks| => EncodeToken(toks[i], d))
  }

  /** The inner loop of the backend `create_seq_mappings`. */
  function EncodeSentence(toks: seq<Prepare.Token>, d: Prepare.Dictionaries): (r: Logged<Prepare.SentenceIds>)
    ensures r.result.Ok? <==> forall i | 0 <= i < |toks| :: EncodeToken(toks[i], d).result.Ok?
    ensures r.result.Ok? ==>
      var s := r.result.value;
      && |s.words| == |toks| && |s.tags| == |toks| && |s.deps| == |toks|
      && forall i | 0 <= i < |toks| ::
        && s.words[i] == Prepare.EncodeWord(d.vocab, d.word2id, toks[i].word).value
        && s.tags[i] == d.pos2id[toks[i].tag]
        && s.deps[i] == ResolveLabel(toks[i].dep, d.dep2id).id.value
    ensures r.result.Ok? ==> r.printed == Reported(toks, d.dep2id)
  {
    var steps := TokenSteps(toks, d);
    var run := RunLogged(steps);
    if run.result.Ok? then
      ReportedByRun(toks, d);
      Logged(Ok(Prepare.Unzip(run.result.value)), run.printed)
    else Logged(Err(run.result.error), run.printed)
  }

  /** When every token encodes, the tokens print exactly the reported labels. */
  lemma {:induction false} ReportedByRun(toks: seq<Prepare.Token>, d: Prepare.Dictionaries)
    requires forall i | 0 <= i < |toks| :: EncodeToken(toks[i], d).result.Ok?
    ensures AllPrinted(TokenSteps(toks, d)) == Reported(toks, d.dep2id)
  {
    if |toks| > 0 {
      assert TokenSteps(toks, d)[1..] == TokenSteps(toks[1..], d);
      ReportedByRun(toks[1..], d);
    }
  }

  /** The backend `create_seq_mappings` over the zipped corpus. */
  function CreateSeqMappings(ws: seq<seq<string>>, ps: seq<seq<string>>, ds: seq<seq<string>>,
                             d: Prepare.Dictionaries): (r: Logged<seq<Prepare.SentenceIds>>)
    ensures var z := Prepare.ZipCorpus(ws, ps, ds);
      r.result.Ok? <==> forall i | 0 <= i < |z| :: EncodeSentence(z[i], d).result.Ok?
    ensures var z := Prepare.ZipCorpus(ws, ps, ds);
      r.result.Ok? ==> |r.result.value| == |z| && forall i | 0 <= i < |z| ::
        Ok(r.result.value[i]) == EncodeSentence(z[i], d).result
    ensures r.result.Ok? ==> r.printed == ReportedCorpus(Prepare.ZipCorpus(ws, ps, ds), d.dep2id)
  {
    var z := Prepare.ZipCorpus(ws, ps, ds);
    var run := RunLogged(SentenceSteps(z, d));
    if run.result.Ok? then
      ReportedCorpusByRun(z, d);
      run
    else run
  }

  /** The labels each sentence reports, sentence after sentence. */
  function ReportedCorpus(z: seq<seq<Prepare.Token>>, dep2id: map<string, int>): seq<string> {
    if |z| == 0 then [] else Reported(z[0], dep2id) + ReportedCorpus(z[1..], dep2id)
  }

  /** When every sentence encodes, the sentences print exactly the labels
      they report, in corpus order. */
  lemma {:induction false} ReportedCorpusByRun(z: seq<seq<Prepare.Token>>, d: Prepare.Dictionaries)
    requires forall i | 0 <= i < |z| :: EncodeSentence(z[i], d).result.Ok?
    ensures AllPrinted(SentenceSteps(z, d)) == ReportedCorpus(z, d.dep2id)
  {
    if |z| > 0 {
      assert SentenceSteps(z, d)[1..] == SentenceSteps(z[1..], d);
      ReportedCorpusByRun(z[1..], d);
    }
  }

  function SentenceSteps(z: seq<seq<Prepare.Token>>, d: Prepare.Dictionaries): (rs: seq<Logged<Prepare.SentenceIds>>)
    ensures |rs| == |z|
    ensures forall i | 0 <= i < |z| :: rs[i] == EncodeSentence(z[i], d)
  {
    seq(|z|, i requires 0 <= i < |z| => EncodeSentence(z[i], d))
  }

  /** A sentence whose labels the dictionary all knows is encoded as the
      training encoder does, and nothing is printed. */
  lemma EncodeSentenceAgrees(toks: seq<Prepare.Token>, d: Prepare.Dictionaries)
    requires forall i | 0 <= i < |toks| :: toks[i].dep in d.dep2id
    ensures EncodeSentence(toks, d) == Logged(Prepare.EncodeSentence(toks, d), [])
  {
    var steps := TokenSteps(toks, d);
    forall i | 0 <= i < |toks| ensures steps[i] == Logged(Prepare.EncodeToken(toks[i], d), []) {
      EncodeTokenAgrees(toks[i], d);
    }
    var trained := seq(|toks|, i requires 0 <= i < |toks| => Prepare.EncodeToken(toks[i], d));
    assert ResultsOf(steps) == trained;
  }

  /** When every zipped label is in the label dictionary, the backend
      encoder returns what the training encoder returns and prints nothing. */
  lemma BackendAgreesWithTraining(ws: seq<seq<string>>, ps: seq<seq<string>>, ds: seq<seq<string>>,
                                  d: Prepare.Dictionaries)
    requires var z := Prepare.ZipCorpus(ws, ps, ds);
      forall i, j | 0 <= i < |z| && 0 <= j < |z[i]| :: z[i][j].dep in d.dep2id
    ensures CreateSeqMappings(ws, ps, ds, d) == Logged(Prepare.CreateSeqMappings(ws, ps, ds, d), [])
  {
    var z := Prepare.ZipCorpus(ws, ps, ds);
    var steps := SentenceSteps(z, d);
    forall i | 0 <= i < |z| ensures steps[i] == Logged(Prepare.EncodeSentence(z[i], d), []) {
      EncodeSentenceAgrees(z[i], d);
    }
    var trained := seq(|z|, i requires 0 <= i < |z| => Prepare.EncodeSentence(z[i], d));
    assert ResultsOf(steps) == trained;
  }
}

=== FILE: parser.dfy ===
/** The two formatting helpers of `backend/parser.py`, which turn the
    parser's tagger and dependency output into the per-word tag and label
    lists that the inference-time encoder zips with the words. The parser
    service itself is not part of the model: its answers are the inputs. */
module Parser {
  import opened Seqs

  /** One pair of the tagger's answer: a word and its part-of-speech tag. */
  datatype Tagged = Tagged(word: string, tag: string)

  /** One triple of the dependency parser's answer: the label, the index of
      the governing word, and the index of the dependent word. */
  datatype Dependency = Dependency(relation: string, governor: int, dependent: int)

  /** `format_pos`: the tags in order. */
  function FormatPos(pairs: seq<Tagged>): (r: seq<string>)
    ensures |r| == |pairs|
    ensures forall i | 0 <= i < |pairs| :: r[i] == pairs[i].tag
  {
    if |pairs| == 0 then [] else [pairs[0].tag] + FormatPos(pairs[1..])
  }

  function TaggedWords(pairs: seq<Tagged>): (r: seq<string>)
    ensures |r| == |pairs|
    ensures forall i | 0 <= i < |pairs| :: r[i] == pairs[i].word
  {
    seq(|pairs|, i requires 0 <= i < |pairs| => pairs[i].word)
  }

  /** Pairs each word with the tag at the same position. */
  function ZipTags(words: seq<string>, tags: seq<string>): (r: seq<Tagged>)
    requires |words| == |tags|
  {
    seq(|words|, i requires 0 <= i < |words| => Tagged(words[i], tags[i]))
  }

  /** No information is lost: zipping the words with the formatted tags
      gives back the tagger's answer, so the i-th tag belongs to the i-th
      word. */
  lemma FormatPosZipsBack(pairs: seq<Tagged>)
    ensures ZipTags(TaggedWords(pairs), FormatPos(pairs)) == pairs
  {
  }

  function DependentOf(d: Dependency): int {
    d.dependent
  }

  /** The labels of a sequence of triples, in order. */
  function Labels(s: seq<Dependency>): (r: seq<string>)
    ensures |r| == |s|
    ensures forall i | 0 <= i < |s| :: r[i] == s[i].relation
  {
    seq(|s|, i requires 0 <= i < |s| => s[i].relation)
  }

  /** `format_dep_parse`: the labels after a stable sort of the triples by
      dependent index. Every label is kept, each as often as the parser gave
      it, and the order is that of the (only) stable sort. */
  function FormatDepParse(parse: seq<Dependency>): (r: seq<string>)
    ensures |r| == |parse|
    ensures multiset(r) == multiset(Labels(parse))
    ensures exists q :: IsStableSortOf(q, parse, DependentOf) && r == Labels(q)
  {
    var q := SortBy(parse, DependentOf);
    SortByIsStable(parse, DependentOf);
    SortKeepsLabels(parse);
    Labels(q)
  }

  lemma LabelsCons(x: Dependency, s: seq<Dependency>)
    ensures Labels([x] + s) == [x.relation] + Labels(s)
  {
  }

  lemma {:induction false} InsertKeepsLabels(x: Dependency, s: seq<Dependency>)
    ensures multiset(Labels(InsertBy(x, s, DependentOf))) == multiset(Labels(s)) + multiset{x.relation}
  {
    if |s| == 0 || DependentOf(x) <= DependentOf(s[0]) {
      LabelsCons(x, s);
    } else {
      var t := InsertBy(x, s[1..], DependentOf);
      assert InsertBy(x, s, DependentOf) == [s[0]] + t;
      InsertKeepsLabels(x, s[1..]);
      LabelsCons(s[0], t);
      assert s == [s[0]] + s[1..];
      LabelsCons(s[0], s[1..]);
    }
  }

  lemma {:induction false} SortKeepsLabels(s: seq<Dependency>)
    ensures multiset(Labels(SortBy(s, DependentOf))) == multiset(Labels(s))
  {
    if |s| > 0 {
      var t := SortBy(s[1..], DependentOf);
      SortByStep(s);
      SortKeepsLabels(s[1..]);
      InsertKeepsLabels(s[0], t);
      LabelsOfTail(s);
    }
  }

  lemma SortByStep(s: seq<Dependency>)
    requires |s| > 0
    ensures SortBy(s, DependentOf) == InsertBy(s[0], SortBy(s[1..], DependentOf), DependentOf)
  {
  }

  lemma LabelsOfTail(s: seq<Dependency>)
    requires |s| > 0
    ensures Labels(s) == [s[0].relation] + Labels(s[1..])
  {
  }

  /** The result does not depend on how the sort is carried out: any stable
      sort of the triples by dependent index gives the same labels. */
  lemma FormatDepParseIsAnyStableSort(parse: seq<Dependency>, q: seq<Dependency>)
    requires IsStableSortOf(q, parse, DependentOf)
    ensures FormatDepParse(parse) == Labels(q)
  {
    SortByIsStable(parse, DependentOf);
    StableSortIsUnique(SortBy(parse, DependentOf), q, DependentOf);
  }

  /** The dependents are the word positions 1..n, each once, as in a parse
      of an n-word sentence. */
  predicate NumbersEachWordOnce(parse: seq<Dependency>) {
    && (forall i | 0 <= i < |parse| :: 1 <= parse[i].dependent <= |parse|)
    && (forall i, j | 0 <= i < j < |parse| :: parse[i].dependent != parse[j].dependent)
  }

  /** For a parse that numbers each word once, the label list is in word
      order: the label at position k-1 is the label of word k. */
  lemma LabelsInWordOrder(parse: seq<Dependency>)
    requires NumbersEachWordOnce(parse)
    ensures forall i | 0 <= i < |parse| :: FormatDepParse(parse)[parse[i].dependent - 1] == parse[i].relation
  {
    var q := SortBy(parse, DependentOf);
    SortedIsIncreasing(parse);
    SortedIsNumbered(q, |parse|);
    assert FormatDepParse(parse) == Labels(q);
    NumberedLabels(parse, q);
  }

  lemma NumberedLabels(parse: seq<Dependency>, q: seq<Dependency>)
    requires forall k | 0 <= k < |q| :: q[k].dependent == k + 1
    requires forall i | 0 <= i < |parse| :: parse[i] in q
    ensures forall i | 0 <= i < |parse| :: Labels(q)[parse[i].dependent - 1] == parse[i].relation
  {
    forall i | 0 <= i < |parse| ensures Labels(q)[parse[i].dependent - 1] == parse[i].relation {
      var k :| 0 <= k < |q| && q[k] == parse[i];
    }
  }

  /** Sorting a parse that numbers each word once gives strictly increasing
      dependents, all within 1..n. */
  lemma SortedIsIncreasing(parse: seq<Dependency>)
    requires NumbersEachWordOnce(parse)
    ensures forall k | 0 <= k < |parse| :: 1 <= SortBy(parse, DependentOf)[k].dependent <= |parse|
    ensures forall a, b | 0 <= a < b < |parse| ::
      SortBy(parse, DependentOf)[a].dependent < SortBy(parse, DependentOf)[b].dependent
  {
    var q := SortBy(parse, DependentOf);
    assert NoDup(parse) by {
      forall i, j | 0 <= i < j < |parse| ensures parse[i] != parse[j] {
        assert parse[i].dependent != parse[j].dependent;
      }
    }
    forall k | 0 <= k < |parse| ensures 1 <= q[k].dependent <= |parse| {
      assert q[k] in parse;
    }
    forall a, b | 0 <= a < b < |parse| ensures q[a].dependent < q[b].dependent {
      assert q[a] in parse && q[b] in parse;
      var i :| 0 <= i < |parse| && parse[i] == q[a];
      var j :| 0 <= j < |parse| && parse[j] == q[b];
      assert q[a] != q[b];
      assert DependentOf(q[a]) <= DependentOf(q[b]);
    }
  }

  /** n strictly increasing numbers within 1..n are 1, 2, ..., n. */
  lemma SortedIsNumbered(q: seq<Dependency>, n: nat)
    requires |q| == n
    requires forall k | 0 <= k < |q| :: 1 <= q[k].dependent <= n
    requires forall a, b | 0 <= a < b < |q| :: q[a].dependent < q[b].dependent
    ensures forall k | 0 <= k < |q| :: q[k].dependent == k + 1
  {
    forall k | 0 <= k < |q| ensures q[k].dependent == k + 1 {
      StrictGap(q, 0, k);
      StrictGap(q, k, |q| - 1);
    }
  }

  lemma {:induction false} StrictGap(q: seq<Dependency>, a: nat, b: nat)
    requires forall i, j | 0 <= i < j < |q| :: q[i].dependent < q[j].dependent
    requires a <= b < |q|
    ensures q[b].dependent - q[a].dependent >= b - a
    decreases b - a
  {
    if a < b {
      StrictGap(q, a, b - 1);
    }
  }
}

=== FILE: prepare.dfy ===
/** From tokenized word, tag and label files to integer sequences: the
    dimension check, the vocabularies, the dense 1-based dictionaries and the
    per-sentence encoding with an out-of-vocabulary id of |V| + 1. */
module Prepare {
  import opened Results
  import opened Seqs

  /** Most words the vocabulary keeps (`most_common(50000)`). */
  const VocabularyCap: nat := 50000

  function Min(a: int, b: int): int {
    if a <= b then a else b
  }

  function Min3(a: nat, b: nat, c: nat): (m: nat)
    ensures m <= a && m <= b && m <= c
    ensures m == a || m == b || m == c
  {
    if a <= b && a <= c then a else if b <= c then b else c
  }

  // ---- zipping ----

  /** One position of `zip(words, tags, labels)`. */
  datatype Token = Token(word: string, tag: string, dep: string)

  /** `zip` over one sentence: it stops at the shortest of the three. */
  function ZipSentence(words: seq<string>, tags: seq<string>, deps: seq<string>): (r: seq<Token>)
    ensures |r| == Min3(|words|, |tags|, |deps|)
    ensures forall i | 0 <= i < |r| :: r[i] == Token(words[i], tags[i], deps[i])
  {
    var n := Min3(|words|, |tags|, |deps|);
    seq(n, i requires 0 <= i < n => Token(words[i], tags[i], deps[i]))
  }

  /** `zip` over the corpus, each sentence zipped in turn. */
  function ZipCorpus(ws: seq<seq<string>>, ps: seq<seq<string>>, ds: seq<seq<string>>): (z: seq<seq<Token>>)
    ensures |z| == Min3(|ws|, |ps|, |ds|)
    ensures forall i | 0 <= i < |z| :: z[i] == ZipSentence(ws[i], ps[i], ds[i])
  {
    var n := Min3(|ws|, |ps|, |ds|);
    seq(n, i requires 0 <= i < n => ZipSentence(ws[i], ps[i], ds[i]))
  }

  /** The zipped tokens of the corpus in reading order. */
  function Flatten(z: seq<seq<Token>>): (toks: seq<Token>)
  {
    if |z| == 0 then [] else z[0] + Flatten(z[1..])
  }

  lemma {:induction false} FlattenMembership(z: seq<seq<Token>>, t: Token)
    ensures t in Flatten(z) <==> exists i, j | 0 <= i < |z| && 0 <= j < |z[i]| :: z[i][j] == t
  {
    if |z| > 0 {
      FlattenMembership(z[1..], t);
      if t in Flatten(z[1..]) {
        var i, j :| 0 <= i < |z[1..]| && 0 <= j < |z[1..][i]| && z[1..][i][j] == t;
        assert z[i + 1][j] == t;
      }
      if exists i, j | 0 <= i < |z| && 0 <= j < |z[i]| :: z[i][j] == t {
        var i, j :| 0 <= i < |z| && 0 <= j < |z[i]| && z[i][j] == t;
        if i > 0 {
          assert z[1..][i - 1][j] == t;
        } else {
          assert z[0][j] in z[0];
        }
      }
    }
  }

  // ---- the dimension check ----

  /** `verify_dimensions`: the zipped sentence triples agree in length;
      sentences past the shortest of the three lists are never looked at. */
  function VerifyDimensions(ws: seq<seq<string>>, ps: seq<seq<string>>, ds: seq<seq<string>>): (ok: bool)
    ensures ok <==> forall i | 0 <= i < Min3(|ws|, |ps|, |ds|) ::
      |ws[i]| == |ps[i]| && |ws[i]| == |ds[i]|
  {
    VerifyFrom(ws, ps, ds, 0)
  }

  /** The loop of `verify_dimensions` from sentence `i` on; it returns at
      the first sentence whose three lengths are not all equal. */
  function VerifyFrom(ws: seq<seq<string>>, ps: seq<seq<string>>, ds: seq<seq<string>>, i: nat): (ok: bool)
    ensures ok <==> forall k | i <= k < Min3(|ws|, |ps|, |ds|) ::
      |ws[k]| == |ps[k]| && |ws[k]| == |ds[k]|
    decreases |ws| - i
  {
    if i >= |ws| || i >= |ps| || i >= |ds| then true
    else if |ws[i]| != |ds[i]| || |ws[i]| != |ps[i]| || |ds[i]| != |ps[i]| then false
    else VerifyFrom(ws, ps, ds, i + 1)
  }

  /** Appending sentences to the longest list cannot change the verdict. */
  lemma VerifyDimensionsIgnoresExtra(ws: seq<seq<string>>, ps: seq<seq<string>>, ds: seq<seq<string>>, extra: seq<seq<string>>)
    requires |ps| <= |ws|
    ensures VerifyDimensions(ws + extra, ps, ds) == VerifyDimensions(ws, ps, ds)
  {
    assert Min3(|ws + extra|, |ps|, |ds|) == Min3(|ws|, |ps|, |ds|);
    forall i | 0 <= i < |ws| ensures (ws + extra)[i] == ws[i] { }
  }

  /** When the dimensions agree, zipping a sentence loses nothing. */
  lemma VerifiedZipIsExact(ws: seq<seq<string>>, ps: seq<seq<string>>, ds: seq<seq<string>>)
    requires VerifyDimensions(ws, ps, ds)
    ensures var z := ZipCorpus(ws, ps, ds);
      forall i | 0 <= i < |z| :: |z[i]| == |ws[i]| == |ps[i]| == |ds[i]|
  {
  }

  /** Zipping keeps a sentence's words when the other columns are no shorter. */
  lemma ZipKeepsWords(words: seq<string>, tags: seq<string>, deps: seq<string>)
    requires |words| <= |tags| && |words| <= |deps|
    ensures Words(ZipSentence(words, tags, deps)) == words
  {
  }

  // ---- dictionaries ----

  /** `create_mapping`: element i gets i + 1; a repeated element keeps the
      position of its last occurrence. */
  function CreateMapping(elems: seq<string>): (m: map<string, int>)
    ensures forall t :: t in m <==> t in elems
    ensures forall t | t in m :: 1 <= m[t] <= |elems| && elems[m[t] - 1] == t
  {
    if |elems| == 0 then map[]
    else
      var p := elems[..|elems| - 1];
      assert elems == p + [elems[|elems| - 1]];
      CreateMapping(p)[elems[|elems| - 1] := |elems|]
  }

  /** The id of a repeated element is one past its last occurrence. */
  lemma {:induction false} CreateMappingKeepsLast(elems: seq<string>, t: string, j: nat)
    requires j < |elems| && elems[j] == t
    ensures t in CreateMapping(elems) && j < CreateMapping(elems)[t]
  {
    var n := |elems|;
    var p := elems[..n - 1];
    var x := elems[n - 1];
    assert CreateMapping(elems) == CreateMapping(p)[x := n];
    if x != t {
      assert p[j] == t;
      CreateMappingKeepsLast(p, t, j);
    }
  }

  /** On a duplicate-free sequence the mapping is dense: the element at
      index i gets exactly i + 1 and distinct elements get distinct ids, so
      the ids are exactly 1 to n and 0 is never used. */
  lemma CreateMappingDense(elems: seq<string>)
    requires NoDup(elems)
    ensures var m := CreateMapping(elems);
      && (forall i | 0 <= i < |elems| :: elems[i] in m && m[elems[i]] == i + 1)
      && (forall s, t | s in m && t in m && s != t :: m[s] != m[t])
  {
    var m := CreateMapping(elems);
    assert forall t :: t in m <==> t in elems;
  }

  /** `set.add` over the zipped tokens: every tag seen, and nothing else. */
  function CollectTags(toks: seq<Token>): (r: set<string>)
    ensures forall t :: t in r <==> exists i | 0 <= i < |toks| :: toks[i].tag == t
  {
    if |toks| == 0 then {}
    else
      var p := toks[..|toks| - 1];
      assert forall i | 0 <= i < |p| :: p[i] == toks[i];
      CollectTags(p) + {toks[|toks| - 1].tag}
  }

  /** `set.add` over the zipped tokens: every dependency label seen. */
  function CollectLabels(toks: seq<Token>): (r: set<string>)
    ensures forall t :: t in r <==> exists i | 0 <= i < |toks| :: toks[i].dep == t
  {
    if |toks| == 0 then {}
    else
      var p := toks[..|toks| - 1];
      assert forall i | 0 <= i < |p| :: p[i] == toks[i];
      CollectLabels(p) + {toks[|toks| - 1].dep}
  }

  function Words(toks: seq<Token>): (bag: seq<string>)
    ensures |bag| == |toks|
    ensures forall i | 0 <= i < |toks| :: bag[i] == toks[i].word
  {
    seq(|toks|, i requires 0 <= i < |toks| => toks[i].word)
  }

  /** How often `w` occurs in the bag of words. */
  function Frequency(bag: seq<string>, w: string): nat {
    multiset(bag)[w]
  }

  /** `FreqDist(bag).most_common(n)`, words only: the distinct words in
      order of decreasing count, ties in first-seen order, cut to `n`. */
  function MostCommon(bag: seq<string>, n: nat): (r: seq<string>)
    ensures |r| <= n
    ensures NoDup(r)
    ensures forall w | w in r :: w in bag
    ensures forall i, j | 0 <= i < j < |r| :: Frequency(bag, r[i]) >= Frequency(bag, r[j])
    ensures forall w, x | w in bag && w !in r && x in r :: Frequency(bag, x) >= Frequency(bag, w)
    ensures forall w | w in bag && w !in r :: |r| == n
  {
    var key: string -> int := w => -(Frequency(bag, w) as int);
    var ranked := SortBy(Distinct(bag), key);
    assert forall i, j | 0 <= i < j < |ranked| :: key(ranked[i]) <= key(ranked[j]);
    PrefixIsMostCommon(bag, ranked, n);
    ranked[..Min(n, |ranked|)]
  }

  /** A prefix of the distinct words ranked by non-increasing frequency holds
      the most common words. */
  lemma PrefixIsMostCommon(bag: seq<string>, ranked: seq<string>, n: nat)
    requires NoDup(ranked)
    requires forall w :: w in ranked <==> w in bag
    requires forall i, j | 0 <= i < j < |ranked| :: Frequency(bag, ranked[i]) >= Frequency(bag, ranked[j])
    ensures var r := ranked[..Min(n, |ranked|)];
      && |r| <= n
      && NoDup(r)
      && (forall w | w in r :: w in bag)
      && (forall i, j | 0 <= i < j < |r| :: Frequency(bag, r[i]) >= Frequency(bag, r[j]))
      && (forall w, x | w in bag && w !in r && x in r :: Frequency(bag, x) >= Frequency(bag, w))
      && (forall w | w in bag && w !in r :: |r| == n)
  {
    var r := ranked[..Min(n, |ranked|)];
    assert forall w | w in bag && w !in r :: exists k | |r| <= k < |ranked| :: ranked[k] == w;
  }

  /** What `create_vocabulary` returns: the word list and the tag and label sets. */
  datatype Vocabulary = Vocabulary(words: seq<string>, tags: set<string>, labels: set<string>)

  /** `create_vocabulary`: the most frequent zipped words, and the sets of
      zipped tags and labels. */
  function CreateVocabulary(ws: seq<seq<string>>, ps: seq<seq<string>>, ds: seq<seq<string>>): (v: Vocabulary)
    ensures |v.words| <= VocabularyCap
    ensures NoDup(v.words)
    ensures var toks := Flatten(ZipCorpus(ws, ps, ds));
      && (forall w | w in v.words :: w in Words(toks))
      && (forall i, j | 0 <= i < j < |v.words| :: Frequency(Words(toks), v.words[i]) >= Frequency(Words(toks), v.words[j]))
      && (forall w, x | w in Words(toks) && w !in v.words && x in v.words ::
            Frequency(Words(toks), x) >= Frequency(Words(toks), w))
      && (forall w | w in Words(toks) && w !in v.words :: |v.words| == VocabularyCap)
    ensures var z := ZipCorpus(ws, ps, ds);
      && (forall t :: t in v.tags <==> exists i, j | 0 <= i < |z| && 0 <= j < |z[i]| :: z[i][j].tag == t)
      && (forall t :: t in v.labels <==> exists i, j | 0 <= i < |z| && 0 <= j < |z[i]| :: z[i][j].dep == t)
  {
    var z := ZipCorpus(ws, ps, ds);
    var toks := Flatten(z);
    var v := Vocabulary(MostCommon(Words(toks), VocabularyCap), CollectTags(toks), CollectLabels(toks));
    ZippedTagsAndLabels(z, v.tags, v.labels);
    v
  }

  lemma ZippedTagsAndLabels(z: seq<seq<Token>>, tags: set<string>, labels: set<string>)
    requires tags == CollectTags(Flatten(z)) && labels == CollectLabels(Flatten(z))
    ensures forall t :: t in tags <==> exists i, j | 0 <= i < |z| && 0 <= j < |z[i]| :: z[i][j].tag == t
    ensures forall t :: t in labels <==> exists i, j | 0 <= i < |z| && 0 <= j < |z[i]| :: z[i][j].dep == t
  {
    var toks := Flatten(z);
    forall t ensures t in tags <==> exists i, j | 0 <= i < |z| && 0 <= j < |z[i]| :: z[i][j].tag == t {
      if t in tags {
        var k :| 0 <= k < |toks| && toks[k].tag == t;
        FlattenMembership(z, toks[k]);
      }
      if exists i, j | 0 <= i < |z| && 0 <= j < |z[i]| :: z[i][j].tag == t {
        var i, j :| 0 <= i < |z| && 0 <= j < |z[i]| && z[i][j].tag == t;
        FlattenMembership(z, z[i][j]);
      }
    }
    forall t ensures t in labels <==> exists i, j | 0 <= i < |z| && 0 <= j < |z[i]| :: z[i][j].dep == t {
      if t in labels {
        var k :| 0 <= k < |toks| && toks[k].dep == t;
        FlattenMembership(z, toks[k]);
      }
      if exists i, j | 0 <= i < |z| && 0 <= j < |z[i]| :: z[i][j].dep == t {
        var i, j :| 0 <= i < |z| && 0 <= j < |z[i]| && z[i][j].dep == t;
        FlattenMembership(z, z[i][j]);
      }
    }
  }

  // ---- encoding ----

  /** The vocabulary and dictionaries the encoder reads; never changed by it. */
  datatype Dictionaries = Dictionaries(
    vocab: seq<string>,
    word2id: map<string, int>,
    pos2id: map<string, int>,
    dep2id: map<string, int>)

  /** A word's id: its dictionary entry when it is in the vocabulary list,
      otherwise |V| + 1. */
  function EncodeWord(vocab: seq<string>, word2id: map<string, int>, w: string): (r: Result<int>)
    ensures w in vocab ==> r == Lookup(word2id, w)
    ensures w !in vocab ==> r == Ok(|vocab| + 1)
  {
    if w in vocab then Lookup(word2id, w) else Ok(|vocab| + 1)
  }

  /** With the dictionary built from the vocabulary, encoding never fails,
      ids lie in [1, |V| + 1], |V| + 1 marks exactly the unknown words, and a
      known word is recovered from its id. */
  lemma EncodeWordWithMapping(vocab: seq<string>, w: string)
    ensures var r := EncodeWord(vocab, CreateMapping(vocab), w);
      && r.Ok?
      && 1 <= r.value <= |vocab| + 1
      && (r.value == |vocab| + 1 <==> w !in vocab)
      && (w in vocab ==> vocab[r.value - 1] == w)
  {
  }

  datatype TokenIds = TokenIds(word: int, tag: int, dep: int)

  /** One loop step of `create_seq_mappings`: word, then tag, then label. */
  function EncodeToken(t: Token, d: Dictionaries): (r: Result<TokenIds>)
    ensures r.Ok? <==> EncodeWord(d.vocab, d.word2id, t.word).Ok? && t.tag in d.pos2id && t.dep in d.dep2id
    ensures r.Ok? ==> r.value == TokenIds(EncodeWord(d.vocab, d.word2id, t.word).value, d.pos2id[t.tag], d.dep2id[t.dep])
    ensures r.Err? ==> r.error == (if EncodeWord(d.vocab, d.word2id, t.word).Err? then MissingKey(t.word)
                                   else if t.tag !in d.pos2id then MissingKey(t.tag) else MissingKey(t.dep))
  {
    var w :- EncodeWord(d.vocab, d.word2id, t.word);
    var p :- Lookup(d.pos2id, t.tag);
    var l :- Lookup(d.dep2id, t.dep);
    Ok(TokenIds(w, p, l))
  }

  /** The three id lists of one sentence. */
  datatype SentenceIds = SentenceIds(words: seq<int>, tags: seq<int>, deps: seq<int>)

  function Unzip(ids: seq<TokenIds>): (s: SentenceIds)
    ensures |s.words| == |ids| && |s.tags| == |ids| && |s.deps| == |ids|
    ensures forall i | 0 <= i < |ids| ::
      s.words[i] == ids[i].word && s.tags[i] == ids[i].tag && s.deps[i] == ids[i].dep
  {
    SentenceIds(
      seq(|ids|, i requires 0 <= i < |ids| => ids[i].word),
      seq(|ids|, i requires 0 <= i < |ids| => ids[i].tag),
      seq(|ids|, i requires 0 <= i < |ids| => ids[i].dep))
  }

  /** The inner loop of `create_seq_mappings`. */
  function EncodeSentence(toks: seq<Token>, d: Dictionaries): (r: Result<SentenceIds>)
    ensures r.Ok? <==> forall i | 0 <= i < |toks| :: EncodeToken(toks[i], d).Ok?
    ensures r.Ok? ==> |r.value.words| == |toks| && |r.value.tags| == |toks| && |r.value.deps| == |toks|
    ensures r.Ok? ==> forall i | 0 <= i < |toks| ::
      && r.value.words[i] == EncodeWord(d.vocab, d.word2id, toks[i].word).value
      && r.value.tags[i] == d.pos2id[toks[i].tag]
      && r.value.deps[i] == d.dep2id[toks[i].dep]
    ensures r.Err? ==> exists i | 0 <= i < |toks| ::
      && EncodeToken(toks[i], d) == Err(r.error)
      && forall j | 0 <= j < i :: EncodeToken(toks[j], d).Ok?
  {
    var steps := seq(|toks|, i requires 0 <= i < |toks| => EncodeToken(toks[i], d));
    assert forall i | 0 <= i < |toks| :: steps[i] == EncodeToken(toks[i], d);
    var ids :- AllOk(steps);
    Ok(Unzip(ids))
  }

  /** `create_seq_mappings`: every zipped sentence encoded, in order; the
      first missing dictionary entry stops it. */
  function CreateSeqMappings(ws: seq<seq<string>>, ps: seq<seq<string>>, ds: seq<seq<string>>, d: Dictionaries): (r: Result<seq<SentenceIds>>)
    ensures var z := ZipCorpus(ws, ps, ds);
      r.Ok? <==> forall i | 0 <= i < |z| :: EncodeSentence(z[i], d).Ok?
    ensures var z := ZipCorpus(ws, ps, ds);
      r.Ok? ==> |r.value| == |z| && forall i | 0 <= i < |z| :: r.value[i] == EncodeSentence(z[i], d).value
    ensures var z := ZipCorpus(ws, ps, ds);
      r.Err? ==> exists i | 0 <= i < |z| ::
        && EncodeSentence(z[i], d) == Err(r.error)
        && forall k | 0 <= k < i :: EncodeSentence(z[k], d).Ok?
  {
    AllOk(SentenceSteps(ZipCorpus(ws, ps, ds), d))
  }

  function SentenceSteps(z: seq<seq<Token>>, d: Dictionaries): (rs: seq<Result<SentenceIds>>)
    ensures |rs| == |z|
    ensures forall i | 0 <= i < |z| :: rs[i] == EncodeSentence(z[i], d)
  {
    seq(|z|, i requires 0 <= i < |z| => EncodeSentence(z[i], d))
  }

  /** Per sentence, the three id lists are as long as the zipped sentence,
      and position j holds the ids of the word, tag and label at j. */
  lemma CreateSeqMappingsPointwise(ws: seq<seq<string>>, ps: seq<seq<string>>, ds: seq<seq<string>>, d: Dictionaries)
    requires CreateSeqMappings(ws, ps, ds, d).Ok?
    ensures var r := CreateSeqMappings(ws, ps, ds, d).value;
      && |r| == Min3(|ws|, |ps|, |ds|)
      && forall i | 0 <= i < |r| ::
        var n := Min3(|ws[i]|, |ps[i]|, |ds[i]|);
        && |r[i].words| == n && |r[i].tags| == n && |r[i].deps| == n
        && forall j | 0 <= j < n ::
          && ps[i][j] in d.pos2id && ds[i][j] in d.dep2id
          && r[i].words[j] == EncodeWord(d.vocab, d.word2id, ws[i][j]).value
          && r[i].tags[j] == d.pos2id[ps[i][j]]
          && r[i].deps[j] == d.dep2id[ds[i][j]]
  {
    var r := CreateSeqMappings(ws, ps, ds, d).value;
    var z := ZipCorpus(ws, ps, ds);
    forall i | 0 <= i < |r|
      ensures
        var n := Min3(|ws[i]|, |ps[i]|, |ds[i]|);
        && |r[i].words| == n && |r[i].tags| == n && |r[i].deps| == n
        && forall j | 0 <= j < n ::
          && ps[i][j] in d.pos2id && ds[i][j] in d.dep2id
          && r[i].words[j] == EncodeWord(d.vocab, d.word2id, ws[i][j]).value
          && r[i].tags[j] == d.pos2id[ps[i][j]]
          && r[i].deps[j] == d.dep2id[ds[i][j]]
    {
      assert EncodeSentence(z[i], d).Ok?;
      assert z[i] == ZipSentence(ws[i], ps[i], ds[i]);
    }
  }

  /** With the dictionaries built from the vocabulary and the tag and label
      orders, an encoded sentence is as long as the sentence and every id
      lies in its dictionary's range; word id |V| + 1 marks exactly the words
      outside the vocabulary. */
  lemma EncodedSentenceInRange(toks: seq<Token>, d: Dictionaries, tagOrder: seq<string>, labelOrder: seq<string>)
    requires d.word2id == CreateMapping(d.vocab)
    requires d.pos2id == CreateMapping(tagOrder) && d.dep2id == CreateMapping(labelOrder)
    requires EncodeSentence(toks, d).Ok?
    ensures var s := EncodeSentence(toks, d).value;
      && |s.words| == |toks| && |s.tags| == |toks| && |s.deps| == |toks|
      && IdsWithin(s.words, 1, |d.vocab| + 1)
      && IdsWithin(s.tags, 1, |tagOrder|)
      && IdsWithin(s.deps, 1, |labelOrder|)
      && forall j | 0 <= j < |toks| :: s.words[j] == |d.vocab| + 1 <==> toks[j].word !in d.vocab
  {
    var s := EncodeSentence(toks, d).value;
    SentenceEncodesPointwise(toks, d);
    WordIdsInRange(d.vocab, toks, s.words);
    LookupIdsInRange(toks, s.tags, s.deps, tagOrder, labelOrder);
  }

  /** A sentence that encodes has every word encoded and every tag and label
      looked up. */
  lemma SentenceEncodesPointwise(toks: seq<Token>, d: Dictionaries)
    requires EncodeSentence(toks, d).Ok?
    ensures var s := EncodeSentence(toks, d).value;
      forall j | 0 <= j < |toks| ::
        && EncodeWord(d.vocab, d.word2id, toks[j].word) == Ok(s.words[j])
        && toks[j].tag in d.pos2id && s.tags[j] == d.pos2id[toks[j].tag]
        && toks[j].dep in d.dep2id && s.deps[j] == d.dep2id[toks[j].dep]
  {
    forall j | 0 <= j < |toks| ensures EncodeToken(toks[j], d).Ok? {
    }
  }

  lemma WordIdsInRange(vocab: seq<string>, toks: seq<Token>, ids: seq<int>)
    requires |ids| == |toks|
    requires forall j | 0 <= j < |toks| :: EncodeWord(vocab, CreateMapping(vocab), toks[j].word) == Ok(ids[j])
    ensures IdsWithin(ids, 1, |vocab| + 1)
    ensures forall j | 0 <= j < |toks| :: ids[j] == |vocab| + 1 <==> toks[j].word !in vocab
  {
    forall j | 0 <= j < |toks|
      ensures 1 <= ids[j] <= |vocab| + 1
      ensures ids[j] == |vocab| + 1 <==> toks[j].word !in vocab
    {
      EncodeWordWithMapping(vocab, toks[j].word);
    }
  }

  lemma LookupIdsInRange(toks: seq<Token>, tagIds: seq<int>, depIds: seq<int>,
                         tagOrder: seq<string>, labelOrder: seq<string>)
    requires |tagIds| == |toks| && |depIds| == |toks|
    requires forall j | 0 <= j < |toks| ::
      && toks[j].tag in CreateMapping(tagOrder) && tagIds[j] == CreateMapping(tagOrder)[toks[j].tag]
      && toks[j].dep in CreateMapping(labelOrder) && depIds[j] == CreateMapping(labelOrder)[toks[j].dep]
    ensures IdsWithin(tagIds, 1, |tagOrder|)
    ensures IdsWithin(depIds, 1, |labelOrder|)
  {
  }

  // ---- the whole preparation ----

  /** `seq` lists every member of `s` exactly once: one possible iteration
      order of a Python set. */
  ghost predicate Enumerates(order: seq<string>, s: set<string>) {
    NoDup(order) && forall t :: t in order <==> t in s
  }

  predicate IdsWithin(ids: seq<int>, lo: int, hi: int) {
    forall k | 0 <= k < |ids| :: lo <= ids[k] <= hi
  }

  /** What `prepare_data` returns on success. */
  datatype Prepared = Prepared(sentences: seq<SentenceIds>, dicts: Dictionaries)

  /** `prepare_data` on already tokenized files. The tag and label
      dictionaries are built from `tagOrder` and `labelOrder`, the order in
      which the program happens to iterate its tag and label sets. */
  function PrepareData(ws: seq<seq<string>>, ps: seq<seq<string>>, ds: seq<seq<string>>,
                       tagOrder: seq<string>, labelOrder: seq<string>): (r: Result<Prepared>)
    requires Enumerates(tagOrder, CreateVocabulary(ws, ps, ds).tags)
    requires Enumerates(labelOrder, CreateVocabulary(ws, ps, ds).labels)
    ensures r.Ok? <==> VerifyDimensions(ws, ps, ds)
    ensures r.Err? ==> r.error == DimensionMismatch
    ensures r.Ok? ==> var v := CreateVocabulary(ws, ps, ds);
      r.value.dicts == Dictionaries(v.words, CreateMapping(v.words), CreateMapping(tagOrder), CreateMapping(labelOrder))
    ensures r.Ok? ==> CreateSeqMappings(ws, ps, ds, r.value.dicts) == Ok(r.value.sentences)
    ensures r.Ok? ==> WellPrepared(r.value, ws, ps, ds, |tagOrder|, |labelOrder|)
  {
    if !VerifyDimensions(ws, ps, ds) then Err(DimensionMismatch)
    else Ok(EncodeCorpus(ws, ps, ds, tagOrder, labelOrder))
  }

  /** One id list triple per zipped sentence, each as long as the sentence,
      with word ids in [1, |V| + 1], tag ids in [1, tagCount] and label ids
      in [1, labelCount]. */
  ghost predicate WellPrepared(p: Prepared, ws: seq<seq<string>>, ps: seq<seq<string>>, ds: seq<seq<string>>,
                               tagCount: nat, labelCount: nat) {
    && |p.dicts.vocab| <= VocabularyCap
    && |p.sentences| == Min3(|ws|, |ps|, |ds|)
    && forall i | 0 <= i < |p.sentences| ::
      && |p.sentences[i].words| == |ws[i]| && |p.sentences[i].tags| == |ws[i]| && |p.sentences[i].deps| == |ws[i]|
      && IdsWithin(p.sentences[i].words, 1, |p.dicts.vocab| + 1)
      && IdsWithin(p.sentences[i].tags, 1, tagCount)
      && IdsWithin(p.sentences[i].deps, 1, labelCount)
  }

  /** The part of `prepare_data` after the dimension check. */
  function EncodeCorpus(ws: seq<seq<string>>, ps: seq<seq<string>>, ds: seq<seq<string>>,
                        tagOrder: seq<string>, labelOrder: seq<string>): (p: Prepared)
    requires VerifyDimensions(ws, ps, ds)
    requires Enumerates(tagOrder, CreateVocabulary(ws, ps, ds).tags)
    requires Enumerates(labelOrder, CreateVocabulary(ws, ps, ds).labels)
    ensures var v := CreateVocabulary(ws, ps, ds);
      p.dicts == Dictionaries(v.words, CreateMapping(v.words), CreateMapping(tagOrder), CreateMapping(labelOrder))
    ensures CreateSeqMappings(ws, ps, ds, p.dicts) == Ok(p.sentences)
    ensures WellPrepared(p, ws, ps, ds, |tagOrder|, |labelOrder|)
  {
    var v := CreateVocabulary(ws, ps, ds);
    var d := Dictionaries(v.words, CreateMapping(v.words), CreateMapping(tagOrder), CreateMapping(labelOrder));
    PreparedEncodingSucceeds(ws, ps, ds, tagOrder, labelOrder, d);
    PreparedIdsInRange(ws, ps, ds, tagOrder, labelOrder, d);
    Prepared(CreateSeqMappings(ws, ps, ds, d).value, d)
  }

  /** With dictionaries built from the corpus's own vocabularies no lookup fails. */
  lemma PreparedEncodingSucceeds(ws: seq<seq<string>>, ps: seq<seq<string>>, ds: seq<seq<string>>,
                                 tagOrder: seq<string>, labelOrder: seq<string>, d: Dictionaries)
    requires Enumerates(tagOrder, CreateVocabulary(ws, ps, ds).tags)
    requires Enumerates(labelOrder, CreateVocabulary(ws, ps, ds).labels)
    requires d == Dictionaries(CreateVocabulary(ws, ps, ds).words, CreateMapping(CreateVocabulary(ws, ps, ds).words),
                               CreateMapping(tagOrder), CreateMapping(labelOrder))
    ensures CreateSeqMappings(ws, ps, ds, d).Ok?
  {
    var z := ZipCorpus(ws, ps, ds);
    var v := CreateVocabulary(ws, ps, ds);
    forall i | 0 <= i < |z| ensures EncodeSentence(z[i], d).Ok? {
      forall j | 0 <= j < |z[i]| ensures EncodeToken(z[i][j], d).Ok? {
        ZippedTokenEncodes(z, v, tagOrder, labelOrder, d, i, j);
      }
    }
  }

  lemma ZippedTokenEncodes(z: seq<seq<Token>>, v: Vocabulary, tagOrder: seq<string>, labelOrder: seq<string>,
                           d: Dictionaries, i: nat, j: nat)
    requires forall t :: t in v.tags <==> exists i, j | 0 <= i < |z| && 0 <= j < |z[i]| :: z[i][j].tag == t
    requires forall t :: t in v.labels <==> exists i, j | 0 <= i < |z| && 0 <= j < |z[i]| :: z[i][j].dep == t
    requires Enumerates(tagOrder, v.tags) && Enumerates(labelOrder, v.labels)
    requires d == Dictionaries(v.words, CreateMapping(v.words), CreateMapping(tagOrder), CreateMapping(labelOrder))
    requires i < |z| && j < |z[i]|
    ensures EncodeToken(z[i][j], d).Ok?
  {
    var t := z[i][j];
    assert t.tag in v.tags;
    assert t.dep in v.labels;
    EncodeWordWithMapping(v.words, t.word);
  }

  /** Every id of a prepared sentence lands in its dictionary's range, and
      the three id lists are as long as the sentence. */
  lemma PreparedIdsInRange(ws: seq<seq<string>>, ps: seq<seq<string>>, ds: seq<seq<string>>,
                           tagOrder: seq<string>, labelOrder: seq<string>, d: Dictionaries)
    requires VerifyDimensions(ws, ps, ds)
    requires d == Dictionaries(d.vocab, CreateMapping(d.vocab), CreateMapping(tagOrder), CreateMapping(labelOrder))
    requires CreateSeqMappings(ws, ps, ds, d).Ok?
    requires |d.vocab| <= VocabularyCap
    ensures WellPrepared(Prepared(CreateSeqMappings(ws, ps, ds, d).value, d), ws, ps, ds, |tagOrder|, |labelOrder|)
  {
    var r := CreateSeqMappings(ws, ps, ds, d).value;
    var z := ZipCorpus(ws, ps, ds);
    forall i | 0 <= i < |r|
      ensures |r[i].words| == |ws[i]| && |r[i].tags| == |ws[i]| && |r[i].deps| == |ws[i]|
      ensures IdsWithin(r[i].words, 1, |d.vocab| + 1)
      ensures IdsWithin(r[i].tags, 1, |tagOrder|) && IdsWithin(r[i].deps, 1, |labelOrder|)
    {
      assert |z[i]| == |ws[i]|;
      EncodedSentenceInRange(z[i], d, tagOrder, labelOrder);
    }
  }

}

=== FILE: preprocess.dfy ===
/** Corpus records of the sentence-compression data set and the per-sentence
    operations of the preprocessing step: the word table of a dependency tree,
    the (form, tag, label) segments along its edge list, the line written for
    the segment files and the line written for the gold-compression file. */
module Preprocess {
  import opened Results
  import opened Seqs

  /** One token of the source tree, as listed under a node. */
  datatype Word = Word(form: string, tag: string, id: int)

  datatype Node = Node(words: seq<Word>)

  /** A dependency edge; only the child id and the label are read downstream. */
  datatype Edge = Edge(parentId: int, childId: int, dep: string)

  datatype Tree = Tree(nodes: seq<Node>, edges: seq<Edge>)

  /** The gold compression: the edges of the words it keeps, and its text. */
  datatype Compression = Compression(edges: seq<Edge>, text: string)

  /** One sentence of the corpus. */
  datatype Record = Record(sourceTree: Tree, compression: Compression)

  /** Surface form and tag stored for a word id. */
  datatype WordEntry = WordEntry(form: string, tag: string)

  /** A Python dict from word id to [form, tag]: `keys` is its iteration
      order (insertion order of first assignment), `entries` its contents. */
  datatype WordDict = WordDict(keys: seq<int>, entries: map<int, WordEntry>)

  /** A (form, tag, label) triple for one edge of the source tree. */
  datatype Segment = Segment(form: string, tag: string, dep: string)

  /** The words of all nodes, in node order and then in list order. */
  function TreeWords(nodes: seq<Node>): (ws: seq<Word>)
    ensures forall i, w | 0 <= i < |nodes| && w in nodes[i].words :: w in ws
  {
    if |nodes| == 0 then [] else nodes[0].words + TreeWords(nodes[1..])
  }

  function Ids(ws: seq<Word>): (ids: seq<int>)
    ensures |ids| == |ws|
    ensures forall i | 0 <= i < |ws| :: ids[i] == ws[i].id
  {
    seq(|ws|, i requires 0 <= i < |ws| => ws[i].id)
  }

  /** `ws[i]` is the last word carrying its id. */
  predicate LastWithId(ws: seq<Word>, i: nat)
    requires i < |ws|
  {
    forall j | i < j < |ws| :: ws[j].id != ws[i].id
  }

  /** Assigns every word in turn, as the loop of `create_word_dict` does. */
  function WordDictOf(ws: seq<Word>): (d: WordDict)
    ensures d.keys == Distinct(Ids(ws))
    ensures forall id :: id in d.entries <==> id in Ids(ws)
  {
    if |ws| == 0 then WordDict([], map[])
    else
      var p := ws[..|ws| - 1];
      var w := ws[|ws| - 1];
      var d := WordDictOf(p);
      assert Ids(ws) == Ids(p) + [w.id];
      WordDict(if w.id in d.entries then d.keys else d.keys + [w.id],
               d.entries[w.id := WordEntry(w.form, w.tag)])
  }

  /** The last assignment of an id is the one the table keeps. */
  lemma {:induction false} WordDictOfLastWins(ws: seq<Word>)
    ensures forall i | 0 <= i < |ws| && LastWithId(ws, i) ::
      WordDictOf(ws).entries[ws[i].id] == WordEntry(ws[i].form, ws[i].tag)
  {
    if |ws| > 0 {
      var p := ws[..|ws| - 1];
      WordDictOfLastWins(p);
      forall i | 0 <= i < |ws| && LastWithId(ws, i)
        ensures WordDictOf(ws).entries[ws[i].id] == WordEntry(ws[i].form, ws[i].tag)
      {
        if i < |ws| - 1 {
          assert p[i] == ws[i];
          assert LastWithId(p, i);
          assert Ids(p)[i] == ws[i].id;
        }
      }
    }
  }

  /** `create_word_dict`: maps every word id found in any node of the source
      tree to its [form, tag], the last listing of an id winning; the keys are
      the distinct ids in order of first listing. */
  function CreateWordDict(r: Record): (d: WordDict)
    ensures var ws := TreeWords(r.sourceTree.nodes);
      && NoDup(d.keys)
      && (forall id :: id in d.keys <==> id in Ids(ws))
      && (forall id :: id in d.entries <==> id in Ids(ws))
      && (forall i | 0 <= i < |ws| && LastWithId(ws, i) ::
            d.entries[ws[i].id] == WordEntry(ws[i].form, ws[i].tag))
      && (forall a, b | 0 <= a < b < |d.keys| ::
            IndexOf(Ids(ws), d.keys[a]) < IndexOf(Ids(ws), d.keys[b]))
  {
    var ws := TreeWords(r.sourceTree.nodes);
    DistinctKeepsFirstSeenOrder(Ids(ws));
    WordDictOfLastWins(ws);
    WordDictOf(ws)
  }

  /** Segments for `edges`, failing with the first child id missing from the
      word table. */
  function SegmentsOf(edges: seq<Edge>, d: WordDict): (r: Result<seq<Segment>>)
    ensures r.Ok? <==> forall i | 0 <= i < |edges| :: edges[i].childId in d.entries
    ensures r.Ok? ==> |r.value| == |edges|
    ensures r.Ok? ==> forall i | 0 <= i < |edges| ::
      var e := d.entries[edges[i].childId];
      r.value[i] == Segment(e.form, e.tag, edges[i].dep)
    ensures r.Err? ==> exists i | 0 <= i < |edges| ::
      && r.error == MissingWordId(edges[i].childId)
      && edges[i].childId !in d.entries
      && forall j | 0 <= j < i :: edges[j].childId in d.entries
  {
    if |edges| == 0 then Ok([])
    else if edges[0].childId !in d.entries then Err(MissingWordId(edges[0].childId))
    else
      var e := d.entries[edges[0].childId];
      var rest :- SegmentsOf(edges[1..], d);
      Ok([Segment(e.form, e.tag, edges[0].dep)] + rest)
  }

  /** `create_word_segments`: one segment per source-tree edge, in edge order,
      holding the child's form and tag and the edge's label. */
  function CreateWordSegments(r: Record, d: WordDict): (res: Result<seq<Segment>>)
    ensures var edges := r.sourceTree.edges;
      && (res.Ok? <==> forall i | 0 <= i < |edges| :: edges[i].childId in d.entries)
      && (res.Ok? ==>
            && |res.value| == |edges|
            && forall i | 0 <= i < |edges| ::
                 var e := d.entries[edges[i].childId];
                 res.value[i] == Segment(e.form, e.tag, edges[i].dep))
      && (res.Err? ==> exists i | 0 <= i < |edges| ::
            && res.error == MissingWordId(edges[i].childId)
            && edges[i].childId !in d.entries
            && forall j | 0 <= j < i :: edges[j].childId in d.entries)
  {
    SegmentsOf(r.sourceTree.edges, d)
  }

  /** How many of the three fields are written. */
  function FlagCount(keepWord: bool, keepPos: bool, keepDep: bool): nat {
    (if keepWord then 1 else 0) + (if keepPos then 1 else 0) + (if keepDep then 1 else 0)
  }

  /** The selected fields of one segment, in word/tag/label order. */
  function FieldsOf(s: Segment, keepWord: bool, keepPos: bool, keepDep: bool): (fs: seq<string>)
    ensures |fs| == FlagCount(keepWord, keepPos, keepDep)
  {
    (if keepWord then [s.form] else []) + (if keepPos then [s.tag] else [])
      + (if keepDep then [s.dep] else [])
  }

  /** The token stream a written line is meant to carry. */
  function SelectedFields(data: seq<Segment>, keepWord: bool, keepPos: bool, keepDep: bool): (fs: seq<string>)
  {
    if |data| == 0 then []
    else FieldsOf(data[0], keepWord, keepPos, keepDep) + SelectedFields(data[1..], keepWord, keepPos, keepDep)
  }

  /** Each token followed by one space. */
  function Terminated(tokens: seq<string>): string {
    if |tokens| == 0 then "" else tokens[0] + " " + Terminated(tokens[1..])
  }

  /** The string `write_data` builds for one segment. */
  function SegmentString(s: Segment, keepWord: bool, keepPos: bool, keepDep: bool): string {
    (if keepWord then s.form + " " else "")
      + (if keepPos then s.tag + " " else "")
      + (if keepDep then s.dep + " " else "")
  }

  function SegmentsString(data: seq<Segment>, keepWord: bool, keepPos: bool, keepDep: bool): string {
    if |data| == 0 then ""
    else SegmentString(data[0], keepWord, keepPos, keepDep) + SegmentsString(data[1..], keepWord, keepPos, keepDep)
  }

  /** The line `write_data` appends for one sentence: the segment strings, then a newline. */
  function WriteLine(data: seq<Segment>, keepWord: bool, keepPos: bool, keepDep: bool): (line: string)
    ensures |line| > 0 && line[|line| - 1] == '\n'
    ensures !keepWord && !keepPos && !keepDep ==> line == "\n"
  {
    NoFieldsNoText(data, keepWord, keepPos, keepDep);
    SegmentsString(data, keepWord, keepPos, keepDep) + "\n"
  }

  lemma {:induction false} NoFieldsNoText(data: seq<Segment>, keepWord: bool, keepPos: bool, keepDep: bool)
    ensures !keepWord && !keepPos && !keepDep ==> SegmentsString(data, keepWord, keepPos, keepDep) == ""
  {
    if |data| > 0 {
      NoFieldsNoText(data[1..], keepWord, keepPos, keepDep);
    }
  }

  lemma {:induction false} TerminatedAppend(a: seq<string>, b: seq<string>)
    ensures Terminated(a + b) == Terminated(a) + Terminated(b)
  {
    if |a| == 0 {
      assert a + b == b;
    } else {
      assert (a + b)[0] == a[0];
      assert (a + b)[1..] == a[1..] + b;
      TerminatedAppend(a[1..], b);
      assert Terminated(a + b) == a[0] + " " + (Terminated(a[1..]) + Terminated(b));
    }
  }

  lemma SegmentStringIsTerminated(seg: Segment, keepWord: bool, keepPos: bool, keepDep: bool)
    ensures SegmentString(seg, keepWord, keepPos, keepDep) == Terminated(FieldsOf(seg, keepWord, keepPos, keepDep))
  {
    var w := if keepWord then [seg.form] else [];
    var p := if keepPos then [seg.tag] else [];
    var l := if keepDep then [seg.dep] else [];
    assert Terminated([seg.form]) == seg.form + " ";
    assert Terminated([seg.tag]) == seg.tag + " ";
    assert Terminated([seg.dep]) == seg.dep + " ";
    TerminatedAppend(w, p);
    TerminatedAppend(w + p, l);
  }

  /** A written line is the selected fields, each followed by one space, in
      word/tag/label order per segment and segments in order, then a newline;
      it carries |data| times the number of set flags fields. */
  lemma {:induction false} WriteLineLaysOutFields(data: seq<Segment>, keepWord: bool, keepPos: bool, keepDep: bool)
    ensures WriteLine(data, keepWord, keepPos, keepDep)
         == Terminated(SelectedFields(data, keepWord, keepPos, keepDep)) + "\n"
    ensures |SelectedFields(data, keepWord, keepPos, keepDep)| == FlagCount(keepWord, keepPos, keepDep) * |data|
  {
    SegmentsStringIsTerminated(data, keepWord, keepPos, keepDep);
    SelectedFieldsCount(data, keepWord, keepPos, keepDep);
  }

  lemma {:induction false} SegmentsStringIsTerminated(data: seq<Segment>, keepWord: bool, keepPos: bool, keepDep: bool)
    ensures SegmentsString(data, keepWord, keepPos, keepDep)
         == Terminated(SelectedFields(data, keepWord, keepPos, keepDep))
  {
    if |data| > 0 {
      SegmentsStringIsTerminated(data[1..], keepWord, keepPos, keepDep);
      SegmentStringIsTerminated(data[0], keepWord, keepPos, keepDep);
      TerminatedAppend(FieldsOf(data[0], keepWord, keepPos, keepDep),
                       SelectedFields(data[1..], keepWord, keepPos, keepDep));
    }
  }

  lemma {:induction false} SelectedFieldsCount(data: seq<Segment>, keepWord: bool, keepPos: bool, keepDep: bool)
    ensures |SelectedFields(data, keepWord, keepPos, keepDep)| == FlagCount(keepWord, keepPos, keepDep) * |data|
  {
    if |data| > 0 {
      SelectedFieldsCount(data[1..], keepWord, keepPos, keepDep);
      var c := FlagCount(keepWord, keepPos, keepDep);
      assert c * |data| == c + c * (|data| - 1);
    }
  }

  /** The line `generate_labels` writes: the compression text without its last
      character, then " . " and a newline. */
  function GenerateLabel(text: string): (line: string)
    ensures |line| == (if |text| == 0 then 0 else |text| - 1) + 4
    ensures line[|line| - 4..] == " . \n"
    ensures line[..|line| - 4] == text[..|line| - 4]
  {
    (if |text| == 0 then "" else text[..|text| - 1]) + " . \n"
  }
}

=== FILE: results.dfy ===
/** Failure values of the pipeline. The source signals these by raising
    (KeyError, IndexError) or by returning False; here they are values. */
module Results {

  datatype Error =
    | MissingKey(key: string)   // a token was looked up in a dictionary that lacks it
    | MissingWordId(id: int)    // a tree edge names a word id absent from the node table
    | MissingLine(index: nat)   // more corpus records than tokenized lines
    | IndexOutOfRange(position: int) // a list was indexed past either end
    | DimensionMismatch         // word/tag/label sequences of some sentence differ in length

  /** Either a value or the error that stopped the computation; usable with `:-`. */
  datatype Result<+T> = Ok(value: T) | Err(error: Error) {

    predicate IsFailure() {
      Err?
    }

    function PropagateFailure<U>(): Result<U>
      requires Err?
    {
      Err(error)
    }

    function Extract(): T
      requires Ok?
    {
      value
    }
  }

  /** Dictionary lookup that fails the way a Python `d[k]` does. */
  function Lookup(m: map<string, int>, k: string): (r: Result<int>)
    ensures r.Ok? <==> k in m
    ensures r.Ok? ==> r.value == m[k]
    ensures r.Err? ==> r.error == MissingKey(k)
  {
    if k in m then Ok(m[k]) else Err(MissingKey(k))
  }

  /** Python's `s[i]`: negative positions count from the end. */
  function At<T>(s: seq<T>, i: int): (r: Result<T>)
    ensures r.Ok? <==> -|s| <= i < |s|
    ensures r.Ok? && i >= 0 ==> r.value == s[i]
    ensures r.Ok? && i < 0 ==> r.value == s[|s| + i]
    ensures r.Err? ==> r.error == IndexOutOfRange(i)
  {
    if 0 <= i < |s| then Ok(s[i])
    else if -|s| <= i < 0 then Ok(s[|s| + i])
    else Err(IndexOutOfRange(i))
  }

  /** Runs the steps `rs` in order, as a Python loop that appends each
      result: all values when every step succeeds, otherwise the first
      failure. */
  function AllOk<T>(rs: seq<Result<T>>): (r: Result<seq<T>>)
    ensures r.Ok? <==> forall i | 0 <= i < |rs| :: rs[i].Ok?
    ensures r.Ok? ==> |r.value| == |rs| && forall i | 0 <= i < |rs| :: r.value[i] == rs[i].value
    ensures r.Err? ==> exists i | 0 <= i < |rs| ::
      && rs[i].Err? && r.error == rs[i].error
      && forall j | 0 <= j < i :: rs[j].Ok?
  {
    if |rs| == 0 then Ok([])
    else
      var x :- rs[0];
      var xs :- AllOk(rs[1..]);
      Ok([x] + xs)
  }
}

=== FILE: seqs.dfy ===
/** Sequence facts shared by the pipeline: duplicate-freedom, first occurrences,
    duplicate removal in first-seen order (the key order of a Python dict built
    by insertion) and a stable sort by an integer key (Python's `list.sort(key=...)`). */
module Seqs {

  /** No element occurs twice. */
  predicate NoDup<T(==)>(s: seq<T>) {
    forall i, j | 0 <= i < j < |s| :: s[i] != s[j]
  }

  /** Position of the first occurrence of `x` in `s`. */
  function IndexOf<T(==)>(s: seq<T>, x: T): (i: nat)
    requires x in s
    ensures i < |s| && s[i] == x
    ensures forall j | 0 <= j < i :: s[j] != x
  {
    if s[0] == x then 0 else 1 + IndexOf(s[1..], x)
  }

  /** The distinct elements of `s`, each kept where it first occurs. */
  function Distinct<T(==,!new)>(s: seq<T>): (r: seq<T>)
    ensures NoDup(r)
    ensures forall x :: x in r <==> x in s
    ensures |r| <= |s|
  {
    if |s| == 0 then []
    else
      var p := s[..|s| - 1];
      var x := s[|s| - 1];
      var d := Distinct(p);
      assert s == p + [x];
      if x in d then d else d + [x]
  }

  lemma IndexOfInPrefix<T(!new)>(s: seq<T>, k: nat, x: T)
    requires k <= |s| && x in s[..k]
    ensures IndexOf(s, x) == IndexOf(s[..k], x)
  {
    var i, j := IndexOf(s, x), IndexOf(s[..k], x);
    assert s[j] == x;
    assert i <= j;
    assert s[..k][i] == x;
  }

  /** `Distinct` lists elements in the order of their first occurrence. */
  lemma {:induction false} DistinctKeepsFirstSeenOrder<T(!new)>(s: seq<T>)
    ensures forall a, b | 0 <= a < b < |Distinct(s)| ::
      IndexOf(s, Distinct(s)[a]) < IndexOf(s, Distinct(s)[b])
  {
    if |s| > 0 {
      var p := s[..|s| - 1];
      var x := s[|s| - 1];
      DistinctKeepsFirstSeenOrder(p);
      var d := Distinct(p);
      forall y | y in p
        ensures IndexOf(s, y) == IndexOf(p, y)
      {
        IndexOfInPrefix(s, |s| - 1, y);
      }
      if x !in d {
        assert x !in p;
        assert IndexOf(s, x) == |s| - 1;
        forall a | 0 <= a < |d|
          ensures d[a] in s && IndexOf(s, d[a]) < |s| - 1
        {
          assert d[a] in p;
          assert d[a] == s[IndexOf(p, d[a])];
        }
      }
    }
  }

  /** Python's `s[:n]`: a negative `n` drops that many elements from the end. */
  function SliceTo<T>(s: seq<T>, n: int): (r: seq<T>)
    ensures n >= 0 ==> |r| == (if n <= |s| then n else |s|)
    ensures n < 0 ==> |r| == (if |s| + n >= 0 then |s| + n else 0)
    ensures r == s[..|r|]
  {
    if n >= 0 then (if n <= |s| then s[..n] else s)
    else if |s| + n >= 0 then s[..|s| + n]
    else []
  }

  /** Keys never decrease along `s`. */
  predicate SortedBy<T>(s: seq<T>, key: T -> int) {
    forall i, j | 0 <= i < j < |s| :: key(s[i]) <= key(s[j])
  }

  /** The elements of `s` whose key is `k`, in their order in `s`. */
  function KeyFilter<T>(s: seq<T>, key: T -> int, k: int): (r: seq<T>)
    ensures |r| <= |s|
  {
    if |s| == 0 then []
    else (if key(s[0]) == k then [s[0]] else []) + KeyFilter(s[1..], key, k)
  }

  /** `q` is what a stable sort of `p` by `key` returns: ordered by key, and
      the elements sharing any one key appear in their original order. */
  ghost predicate IsStableSortOf<T>(q: seq<T>, p: seq<T>, key: T -> int) {
    && SortedBy(q, key)
    && forall k :: KeyFilter(q, key, k) == KeyFilter(p, key, k)
  }

  /** Inserts `x` before the first element whose key is not smaller. */
  function InsertBy<T(==,!new)>(x: T, s: seq<T>, key: T -> int): (r: seq<T>)
    ensures |r| == |s| + 1
    ensures multiset(r) == multiset(s) + multiset{x}
    ensures forall y :: y in r <==> y == x || y in s
  {
    if |s| == 0 || key(x) <= key(s[0]) then [x] + s
    else
      assert s == [s[0]] + s[1..];
      [s[0]] + InsertBy(x, s[1..], key)
  }

  lemma {:induction false} InsertBySorted<T(!new)>(x: T, s: seq<T>, key: T -> int)
    requires SortedBy(s, key)
    ensures SortedBy(InsertBy(x, s, key), key)
  {
    if |s| > 0 && key(x) > key(s[0]) {
      var t := InsertBy(x, s[1..], key);
      InsertBySorted(x, s[1..], key);
      forall i | 0 <= i < |t|
        ensures key(s[0]) <= key(t[i])
      {
        assert t[i] in t;
        if t[i] != x {
          var j :| 0 <= j < |s[1..]| && s[1..][j] == t[i];
          assert s[j + 1] == t[i];
        }
      }
      assert InsertBy(x, s, key) == [s[0]] + t;
    }
  }

  lemma {:induction false} InsertByNoDup<T(!new)>(x: T, s: seq<T>, key: T -> int)
    requires NoDup(s) && x !in s
    ensures NoDup(InsertBy(x, s, key))
  {
    if |s| > 0 && key(x) > key(s[0]) {
      var t := InsertBy(x, s[1..], key);
      InsertByNoDup(x, s[1..], key);
      assert s[0] !in s[1..];
      assert s[0] !in t;
      assert InsertBy(x, s, key) == [s[0]] + t;
    }
  }

  /** Insertion sort: the stable sort of `s` by `key`. */
  function SortBy<T(==,!new)>(s: seq<T>, key: T -> int): (r: seq<T>)
    ensures |r| == |s|
    ensures multiset(r) == multiset(s)
    ensures forall y :: y in r <==> y in s
    ensures SortedBy(r, key)
    ensures NoDup(s) ==> NoDup(r)
  {
    if |s| == 0 then []
    else
      assert s == [s[0]] + s[1..];
      var t := SortBy(s[1..], key);
      InsertBySorted(s[0], t, key);
      if NoDup(s) then
        assert s[0] !in s[1..];
        InsertByNoDup(s[0], t, key);
        InsertBy(s[0], t, key)
      else
        InsertBy(s[0], t, key)
  }

  lemma KeyFilterCons<T>(y: T, s: seq<T>, key: T -> int, k: int)
    ensures KeyFilter([y] + s, key, k) == (if key(y) == k then [y] else []) + KeyFilter(s, key, k)
  {
    assert ([y] + s)[1..] == s;
  }

  lemma {:induction false} InsertByFilter<T(!new)>(x: T, s: seq<T>, key: T -> int, k: int)
    ensures KeyFilter(InsertBy(x, s, key), key, k)
         == (if key(x) == k then [x] else []) + KeyFilter(s, key, k)
  {
    if |s| == 0 || key(x) <= key(s[0]) {
      assert InsertBy(x, s, key) == [x] + s;
      KeyFilterCons(x, s, key, k);
    } else {
      var t := InsertBy(x, s[1..], key);
      InsertByStep(x, s, key);
      InsertByFilter(x, s[1..], key, k);
      KeyFilterCons(s[0], t, key, k);
      assert s == [s[0]] + s[1..];
      KeyFilterCons(s[0], s[1..], key, k);
      var rest := KeyFilter(s[1..], key, k);
      if key(x) == k {
        assert KeyFilter(InsertBy(x, s, key), key, k) == [x] + rest;
      } else {
        assert KeyFilter(InsertBy(x, s, key), key, k) == KeyFilter(s, key, k);
      }
    }
  }

  lemma InsertByStep<T(!new)>(x: T, s: seq<T>, key: T -> int)
    requires |s| > 0 && key(x) > key(s[0])
    ensures InsertBy(x, s, key) == [s[0]] + InsertBy(x, s[1..], key)
  {
  }

  /** `SortBy` is a stable sort. */
  lemma {:induction false} SortByIsStable<T(!new)>(s: seq<T>, key: T -> int)
    ensures IsStableSortOf(SortBy(s, key), s, key)
  {
    forall k
      ensures KeyFilter(SortBy(s, key), key, k) == KeyFilter(s, key, k)
    {
      SortByFilter(s, key, k);
    }
  }

  lemma {:induction false} SortByFilter<T(!new)>(s: seq<T>, key: T -> int, k: int)
    ensures KeyFilter(SortBy(s, key), key, k) == KeyFilter(s, key, k)
  {
    if |s| > 0 {
      SortByFilter(s[1..], key, k);
      InsertByFilter(s[0], SortBy(s[1..], key), key, k);
    }
  }

  lemma {:induction false} KeyFilterSound<T(!new)>(s: seq<T>, key: T -> int, k: int)
    ensures forall y | y in KeyFilter(s, key, k) :: key(y) == k && y in s
  {
    if |s| > 0 {
      KeyFilterSound(s[1..], key, k);
    }
  }

  lemma {:induction false} KeyFilterComplete<T(!new)>(s: seq<T>, key: T -> int, i: nat)
    requires i < |s|
    ensures s[i] in KeyFilter(s, key, key(s[i]))
  {
    if i > 0 {
      KeyFilterComplete(s[1..], key, i - 1);
    }
  }

  /** Two sorted sequences with the same per-key filters start with the same key. */
  lemma HeadKeysAgree<T(!new)>(q1: seq<T>, q2: seq<T>, key: T -> int)
    requires |q1| > 0 && |q2| > 0
    requires SortedBy(q1, key) && SortedBy(q2, key)
    requires forall k :: KeyFilter(q1, key, k) == KeyFilter(q2, key, k)
    ensures key(q1[0]) == key(q2[0])
  {
    assert KeyFilter(q1, key, key(q1[0])) == KeyFilter(q2, key, key(q1[0]));
    assert KeyFilter(q2, key, key(q2[0])) == KeyFilter(q1, key, key(q2[0]));
    HeadKeyAtMost(q1, q2, key);
    HeadKeyAtMost(q2, q1, key);
  }

  /** The first element of `q1` occurs in the sorted `q2`, so `q2` starts
      with a key no larger. */
  lemma HeadKeyAtMost<T(!new)>(q1: seq<T>, q2: seq<T>, key: T -> int)
    requires |q1| > 0 && |q2| > 0
    requires SortedBy(q2, key)
    requires KeyFilter(q1, key, key(q1[0])) == KeyFilter(q2, key, key(q1[0]))
    ensures key(q2[0]) <= key(q1[0])
  {
    KeyFilterComplete(q1, key, 0);
    KeyFilterSound(q2, key, key(q1[0]));
    var j :| 0 <= j < |q2| && q2[j] == q1[0];
  }

  /** A nonempty sequence has a nonempty filter for the key of its first element. */
  lemma NonemptyHasFilter<T(!new)>(q: seq<T>, key: T -> int)
    requires |q| > 0
    ensures KeyFilter(q, key, key(q[0])) != []
  {
    assert KeyFilter(q, key, key(q[0]))[0] == q[0];
  }

  /** There is only one stable sort: two sequences sorted by `key` that agree
      on the order of each key's elements are equal. */
  lemma {:induction false} StableSortIsUnique<T(!new)>(q1: seq<T>, q2: seq<T>, key: T -> int)
    requires SortedBy(q1, key) && SortedBy(q2, key)
    requires forall k :: KeyFilter(q1, key, k) == KeyFilter(q2, key, k)
    ensures q1 == q2
    decreases |q1|
  {
    if |q1| == 0 {
      if |q2| > 0 {
        NonemptyHasFilter(q2, key);
      }
    } else if |q2| == 0 {
      NonemptyHasFilter(q1, key);
    } else {
      HeadKeysAgree(q1, q2, key);
      var m := key(q1[0]);
      assert KeyFilter(q1, key, m) == [q1[0]] + KeyFilter(q1[1..], key, m);
      assert KeyFilter(q2, key, m) == [q2[0]] + KeyFilter(q2[1..], key, m);
      assert q1[0] == KeyFilter(q1, key, m)[0] == KeyFilter(q2, key, m)[0] == q2[0];
      forall k
        ensures KeyFilter(q1[1..], key, k) == KeyFilter(q2[1..], key, k)
      {
        if k == m {
          assert KeyFilter(q1[1..], key, k) == KeyFilter(q1, key, k)[1..];
          assert KeyFilter(q2[1..], key, k) == KeyFilter(q2, key, k)[1..];
        } else {
          assert KeyFilter(q1, key, k) == KeyFilter(q1[1..], key, k);
          assert KeyFilter(q2, key, k) == KeyFilter(q2[1..], key, k);
        }
      }
      StableSortIsUnique(q1[1..], q2[1..], key);
      assert q1 == [q1[0]] + q1[1..];
      assert q2 == [q2[0]] + q2[1..];
    }
  }

  // ---- concatenation identities ----

  /** Sequence identities stated apart from the functions that use them, so
      that proofs about those functions need not unfold them here. */
  lemma Reassociate<T>(a: seq<T>, b: seq<T>, x: seq<T>, t: seq<T>)
    requires a == x + t
    ensures a + b == x + (t + b)
  {
  }

  lemma TakeDrop<T>(a: seq<T>, k: nat)
    requires k <= |a|
    ensures a == a[..k] + a[k..]
  {
  }

  lemma Associate<T>(a: seq<T>, b: seq<T>, c: seq<T>, d: seq<T>)
    ensures a + b + c + d == a + (b + (c + d))
  {
  }

  lemma ConsAppend<T>(s: seq<T>, t: seq<T>)
    requires |s| > 0
    ensures s + t == [s[0]] + (s[1..] + t)
  {
  }
}

=== FILE: tokenize.dfy ===
/** The per-line transformation of `read_file`: the newline becomes an end
    marker, a start marker is prepended, the line is optionally lowercased,
    tokens holding a digit are optionally replaced by "##", and the result is
    split on whitespace. */
module Tokenize {
  import opened Preprocess
  import Seqs

  const Bos: string := "<bos>"
  const Eos: string := "<eos>"
  const NumberToken: string := "##"

  /** Python's whitespace (`str.isspace`, `str.split()` and the regex `\s`). */
  predicate IsSpace(c: char) {
    || ('\t' <= c <= '\r')
    || ('\U{1C}' <= c <= '\U{1F}')
    || c == ' ' || c == '\U{85}' || c == '\U{A0}' || c == '\U{1680}'
    || ('\U{2000}' <= c <= '\U{200A}')
    || c == '\U{2028}' || c == '\U{2029}' || c == '\U{202F}' || c == '\U{205F}' || c == '\U{3000}'
  }

  predicate IsDigit(c: char) {
    '0' <= c <= '9'
  }

  predicate HasDigit(s: string) {
    exists i | 0 <= i < |s| :: IsDigit(s[i])
  }

  predicate HasSpace(s: string) {
    exists i | 0 <= i < |s| :: IsSpace(s[i])
  }

  /** A token `str.split()` can return: nonempty and free of whitespace. */
  predicate IsToken(s: string) {
    |s| > 0 && !HasSpace(s)
  }

  /** Length of the run of non-whitespace characters that starts `s`. */
  function RunLength(s: string): (k: nat)
    ensures k <= |s|
    ensures forall i | 0 <= i < k :: !IsSpace(s[i])
    ensures k == |s| || IsSpace(s[k])
  {
    if |s| == 0 || IsSpace(s[0]) then 0 else 1 + RunLength(s[1..])
  }

  /** `str.split()` with no argument: the maximal whitespace-free runs. */
  function Split(s: string): (tokens: seq<string>)
    decreases |s|
  {
    if |s| == 0 then []
    else if IsSpace(s[0]) then Split(s[1..])
    else
      var k := RunLength(s);
      [s[..k]] + Split(s[k..])
  }

  /** Every piece `Split` returns is a token. */
  lemma {:induction false} SplitYieldsTokens(s: string)
    ensures forall t | t in Split(s) :: IsToken(t)
    decreases |s|
  {
    if |s| > 0 {
      if IsSpace(s[0]) {
        SplitYieldsTokens(s[1..]);
      } else {
        LeadingRun(s);
        SplitYieldsTokens(s[RunLength(s)..]);
      }
    }
  }

  /** What the substitution leaves of one whitespace-delimited token. */
  function Normalize(token: string): string {
    if HasDigit(token) then NumberToken else token
  }

  function NormalizeAll(tokens: seq<string>): (r: seq<string>)
    ensures |r| == |tokens|
    ensures forall i | 0 <= i < |tokens| :: r[i] == Normalize(tokens[i])
  {
    if |tokens| == 0 then [] else [Normalize(tokens[0])] + NormalizeAll(tokens[1..])
  }

  /** `re.sub(r'\S*\d+\S*', '##', s)`. A match can only start where the rest
      of the current non-whitespace run holds a digit; the leading `\S*` then
      backtracks to the run's last digit and the trailing `\S*` runs to the end
      of the run. So the first match in a run begins at the run's start and
      covers the whole run, and runs without a digit are left alone. */
  function ReplaceNumbers(s: string): (r: string)
    decreases |s|
  {
    if |s| == 0 then ""
    else if IsSpace(s[0]) then [s[0]] + ReplaceNumbers(s[1..])
    else
      var k := RunLength(s);
      Normalize(s[..k]) + ReplaceNumbers(s[k..])
  }

  /** `s.replace('\n', '<eos>')`. */
  function ReplaceNewlines(s: string): (r: string)
    ensures '\n' !in s ==> r == s
  {
    if |s| == 0 then ""
    else (if s[0] == '\n' then Eos else [s[0]]) + ReplaceNewlines(s[1..])
  }

  /** `s.lower()` for a per-character lowering function. */
  function LowerAll(s: string, lower: char -> char): (r: string)
    ensures |r| == |s|
    ensures forall i | 0 <= i < |s| :: r[i] == lower(s[i])
  {
    seq(|s|, i requires 0 <= i < |s| => lower(s[i]))
  }

  /** The lowering step of `read_file`, when `to_lower` is set. */
  function Cased(s: string, toLower: bool, lower: char -> char): string {
    if toLower then LowerAll(s, lower) else s
  }

  /** The digit substitution step of `read_file`, when `replace_int` is set. */
  function Normalized(s: string, replaceInt: bool): string {
    if replaceInt then ReplaceNumbers(s) else s
  }

  /** One line of `read_file`. */
  function ReadLine(line: string, toLower: bool, replaceInt: bool, lower: char -> char): (tokens: seq<string>)
  {
    Split(Normalized(Cased("<bos> " + ReplaceNewlines(line), toLower, lower), replaceInt))
  }

  /** `read_file`: one token list per line, in file order. */
  function ReadFile(lines: seq<string>, toLower: bool, replaceInt: bool, lower: char -> char): (r: seq<seq<string>>)
    ensures |r| == |lines|
    ensures forall i | 0 <= i < |lines| :: r[i] == ReadLine(lines[i], toLower, replaceInt, lower)
  {
    seq(|lines|, i requires 0 <= i < |lines| => ReadLine(lines[i], toLower, replaceInt, lower))
  }

  /** What the reading relies on from the lowering function: it keeps
      whitespace whitespace and leaves the characters of the markers alone,
      as Python's `str.lower` does. */
  ghost predicate LowerKeepsMarkers(lower: char -> char) {
    && (forall c {:trigger lower(c)} :: IsSpace(c) ==> IsSpace(lower(c)))
    && lower('<') == '<' && lower('>') == '>' && lower(' ') == ' '
    && lower('b') == 'b' && lower('o') == 'o' && lower('s') == 's' && lower('e') == 'e'
  }

  // ---- splitting and substitution over concatenations ----

  lemma {:induction false} RunLengthOfRun(x: string, t: string)
    requires !HasSpace(x)
    requires |t| == 0 || IsSpace(t[0])
    ensures RunLength(x + t) == |x|
  {
    if |x| > 0 {
      assert !IsSpace(x[0]);
      assert (x + t)[1..] == x[1..] + t;
      assert !HasSpace(x[1..]) by {
        forall i | 0 <= i < |x[1..]| ensures !IsSpace(x[1..][i]) {
          assert x[1..][i] == x[i + 1];
        }
      }
      RunLengthOfRun(x[1..], t);
    } else {
      assert x + t == t;
    }
  }

  lemma SplitRun(x: string, t: string)
    requires IsToken(x)
    requires |t| == 0 || IsSpace(t[0])
    ensures Split(x + t) == [x] + Split(t)
  {
    RunLengthOfRun(x, t);
    assert !IsSpace((x + t)[0]) by { assert (x + t)[0] == x[0]; }
    assert (x + t)[..|x|] == x;
    assert (x + t)[|x|..] == t;
  }

  lemma SplitSpace(c: char, t: string)
    requires IsSpace(c)
    ensures Split([c] + t) == Split(t)
  {
    assert ([c] + t)[1..] == t;
  }

  /** The leading run of a string that does not start with whitespace. */
  lemma LeadingRun(a: string)
    requires |a| > 0 && !IsSpace(a[0])
    ensures var k := RunLength(a);
      0 < k <= |a| && IsToken(a[..k]) && a == a[..k] + a[k..] && (k == |a| || IsSpace(a[k]))
  {
    var k := RunLength(a);
    assert k > 0;
    RunIsToken(a, k);
    Seqs.TakeDrop(a, k);
  }

  lemma RunIsToken(a: string, k: nat)
    requires 0 < k <= |a|
    requires forall i | 0 <= i < k :: !IsSpace(a[i])
    ensures IsToken(a[..k])
  {
    var x := a[..k];
    forall i | 0 <= i < |x| ensures !IsSpace(x[i]) {
      assert x[i] == a[i];
    }
  }

  /** Whitespace at the end of `a` separates it from `b`. */
  lemma {:induction false} SplitAppend(a: string, b: string)
    requires |a| > 0 && IsSpace(a[|a| - 1])
    ensures Split(a + b) == Split(a) + Split(b)
    decreases |a|
  {
    if IsSpace(a[0]) {
      if |a| > 1 {
        SplitAppend(a[1..], b);
      }
      SplitAppendSpace(a, b);
    } else {
      LeadingRun(a);
      var k := RunLength(a);
      SplitAppend(a[k..], b);
      SplitAppendRun(a, b);
    }
  }

  lemma SplitAppendSpace(a: string, b: string)
    requires |a| > 0 && IsSpace(a[|a| - 1]) && IsSpace(a[0])
    requires |a| > 1 ==> Split(a[1..] + b) == Split(a[1..]) + Split(b)
    ensures Split(a + b) == Split(a) + Split(b)
  {
    Seqs.TakeDrop(a, 1);
    Seqs.Reassociate(a, b, a[..1], a[1..]);
    assert a[..1] == [a[0]];
    SplitSpace(a[0], a[1..] + b);
    SplitSpace(a[0], a[1..]);
    if |a| == 1 {
      assert a[1..] + b == b;
    }
  }

  lemma SplitAppendRun(a: string, b: string)
    requires |a| > 0 && IsSpace(a[|a| - 1]) && !IsSpace(a[0])
    requires RunLength(a) < |a| && IsToken(a[..RunLength(a)])
    requires Split(a[RunLength(a)..] + b) == Split(a[RunLength(a)..]) + Split(b)
    ensures Split(a + b) == Split(a) + Split(b)
  {
    var k := RunLength(a);
    var x, t := a[..k], a[k..];
    Seqs.TakeDrop(a, k);
    Seqs.Reassociate(a, b, x, t);
    assert IsSpace(t[0]);
    SplitRun(x, t + b);
    SplitRun(x, t);
  }

  lemma ReplaceNumbersSpace(c: char, t: string)
    requires IsSpace(c)
    ensures ReplaceNumbers([c] + t) == [c] + ReplaceNumbers(t)
  {
    assert ([c] + t)[0] == c;
    assert ([c] + t)[1..] == t;
  }

  lemma {:induction false} ReplaceNewlinesAppend(a: string, b: string)
    ensures ReplaceNewlines(a + b) == ReplaceNewlines(a) + ReplaceNewlines(b)
  {
    if |a| == 0 {
      assert a + b == b;
    } else {
      assert (a + b)[0] == a[0];
      assert (a + b)[1..] == a[1..] + b;
      ReplaceNewlinesAppend(a[1..], b);
    }
  }

  // ---- properties of the digit substitution ----

  /** The substitution acts token by token: splitting its output gives the
      original tokens with every digit-bearing one replaced by "##". */
  lemma {:induction false} ReplaceNumbersByToken(s: string)
    ensures Split(ReplaceNumbers(s)) == NormalizeAll(Split(s))
    decreases |s|
  {
    if |s| == 0 {
    } else if IsSpace(s[0]) {
      ReplaceNumbersByToken(s[1..]);
      SplitSpace(s[0], ReplaceNumbers(s[1..]));
    } else {
      var k := RunLength(s);
      var x := s[..k];
      var t := s[k..];
      assert |x| > 0 by { assert RunLength(s) > 0; }
      assert !HasSpace(x) by {
        forall i | 0 <= i < |x| ensures !IsSpace(x[i]) { assert x[i] == s[i]; }
      }
      ReplaceNumbersByToken(t);
      var n := Normalize(x);
      assert IsToken(n) by {
        if HasDigit(x) {
          assert n == "##";
          assert !IsSpace(n[0]) && !IsSpace(n[1]);
        }
      }
      var rt := ReplaceNumbers(t);
      assert |rt| == 0 || IsSpace(rt[0]) by {
        if |t| > 0 {
          assert IsSpace(t[0]);
          assert rt == [t[0]] + ReplaceNumbers(t[1..]);
        }
      }
      SplitRun(n, rt);
      assert NormalizeAll([x] + Split(t)) == [n] + NormalizeAll(Split(t));
    }
  }

  /** With `replace_int`, each token holding a digit becomes exactly "##", the
      others are unchanged, the token count is kept and no token holds a digit. */
  lemma ReadLineReplacesNumbers(line: string, toLower: bool, lower: char -> char)
    ensures var plain := ReadLine(line, toLower, false, lower);
      var tokens := ReadLine(line, toLower, true, lower);
      && |tokens| == |plain|
      && (forall i | 0 <= i < |plain| ::
            tokens[i] == (if HasDigit(plain[i]) then NumberToken else plain[i]))
      && (forall i | 0 <= i < |tokens| :: !HasDigit(tokens[i]))
  {
    var cased := Cased("<bos> " + ReplaceNewlines(line), toLower, lower);
    ReplaceNumbersByToken(cased);
    NormalizeAllHasNoDigit(Split(cased));
  }

  /** No token left by the substitution holds a digit. */
  lemma NormalizeAllHasNoDigit(tokens: seq<string>)
    ensures forall i | 0 <= i < |tokens| :: !HasDigit(NormalizeAll(tokens)[i])
  {
    forall i | 0 <= i < |tokens| ensures !HasDigit(NormalizeAll(tokens)[i]) {
      if HasDigit(tokens[i]) {
        var n := NumberToken;
        assert !IsDigit(n[0]) && !IsDigit(n[1]);
      }
    }
  }

  // ---- the markers ----

  lemma MarkedLineShape(body: string, toLower: bool, lower: char -> char)
    requires toLower ==> LowerKeepsMarkers(lower)
    ensures var cased := Cased("<bos> " + body, toLower, lower);
      cased == Bos + (" " + cased[6..])
  {
    var m := "<bos> ";
    var cased := Cased(m + body, toLower, lower);
    assert cased[..6] == m by {
      if toLower {
        assert lower(m[0]) == m[0] && lower(m[1]) == m[1] && lower(m[2]) == m[2]
            && lower(m[3]) == m[3] && lower(m[4]) == m[4] && lower(m[5]) == m[5];
      }
    }
    assert m == Bos + " ";
    Seqs.TakeDrop(cased, 6);
  }

  /** Every tokenized line starts with the start marker. */
  lemma ReadLineStartsWithBos(line: string, toLower: bool, replaceInt: bool, lower: char -> char)
    requires toLower ==> LowerKeepsMarkers(lower)
    ensures var tokens := ReadLine(line, toLower, replaceInt, lower);
      |tokens| > 0 && tokens[0] == Bos
  {
    var cased := Cased("<bos> " + ReplaceNewlines(line), toLower, lower);
    MarkedLineShape(ReplaceNewlines(line), toLower, lower);
    BosIsToken();
    SplitRun(Bos, " " + cased[6..]);
    NormalizedKeepsMarker(cased, replaceInt, 0, Bos);
  }

  /** Every line of a file read starts with the start marker. */
  lemma ReadFileMarksEveryLine(lines: seq<string>, toLower: bool, replaceInt: bool, lower: char -> char)
    requires toLower ==> LowerKeepsMarkers(lower)
    ensures var r := ReadFile(lines, toLower, replaceInt, lower);
      forall i | 0 <= i < |r| :: |r[i]| > 0 && r[i][0] == Bos
  {
    forall i | 0 <= i < |lines|
      ensures |ReadLine(lines[i], toLower, replaceInt, lower)| > 0
      ensures ReadLine(lines[i], toLower, replaceInt, lower)[0] == Bos
    {
      ReadLineStartsWithBos(lines[i], toLower, replaceInt, lower);
    }
  }

  /** A marker token survives the digit substitution at its position. */
  lemma NormalizedKeepsMarker(s: string, replaceInt: bool, i: nat, marker: string)
    requires i < |Split(s)| && Split(s)[i] == marker && !HasDigit(marker)
    ensures |Split(Normalized(s, replaceInt))| == |Split(s)|
    ensures Split(Normalized(s, replaceInt))[i] == marker
  {
    if replaceInt {
      ReplaceNumbersByToken(s);
    }
  }

  lemma BosIsToken()
    ensures IsToken(Bos) && !HasDigit(Bos)
  {
    var b := Bos;
    assert !IsSpace(b[0]) && !IsSpace(b[1]) && !IsSpace(b[2]) && !IsSpace(b[3]) && !IsSpace(b[4]);
    assert !IsDigit(b[0]) && !IsDigit(b[1]) && !IsDigit(b[2]) && !IsDigit(b[3]) && !IsDigit(b[4]);
  }

  lemma EosIsToken()
    ensures IsToken(Eos) && !HasDigit(Eos)
  {
    var e := Eos;
    assert !IsSpace(e[0]) && !IsSpace(e[1]) && !IsSpace(e[2]) && !IsSpace(e[3]) && !IsSpace(e[4]);
    assert !IsDigit(e[0]) && !IsDigit(e[1]) && !IsDigit(e[2]) && !IsDigit(e[3]) && !IsDigit(e[4]);
  }

  /** A line read from a file ends in its only newline; when whitespace comes
      right before it, the tokens end with the end marker. */
  lemma ReadLineEndsWithEos(body: string, toLower: bool, replaceInt: bool, lower: char -> char)
    requires '\n' !in body
    requires |body| > 0 && IsSpace(body[|body| - 1])
    requires toLower ==> LowerKeepsMarkers(lower)
    ensures var tokens := ReadLine(body + "\n", toLower, replaceInt, lower);
      |tokens| > 0 && tokens[|tokens| - 1] == Eos
  {
    var a := "<bos> " + body;
    MarkedEndsWithEos(body);
    var ca := Cased(a, toLower, lower);
    CasedEndsWithEos(a, toLower, lower);
    LowerKeepsSpace(a, toLower, lower);
    assert ReadLine(body + "\n", toLower, replaceInt, lower) == Split(Normalized(ca + Eos, replaceInt));
    EosEndsTokens(ca, replaceInt);
  }

  /** Without whitespace before the newline the end marker is glued to the
      last word: a line whose last word `w` directly precedes the newline
      reads as the start marker, the words before `w`, and `w` with "<eos>"
      appended; no token is "<eos>" itself. */
  lemma ReadLineGluesEos(b: string, w: string, lower: char -> char)
    requires '\n' !in b && IsToken(w)
    requires |b| == 0 || IsSpace(b[|b| - 1])
    ensures ReadLine(b + w + "\n", false, false, lower) == [Bos] + Split(b) + [w + Eos]
  {
    assert ReadLine((b + w) + "\n", false, false, lower) == Split("<bos> " + ReplaceNewlines((b + w) + "\n"));
    TokenHasNoNewline(b, w);
    MarkedEndsWithEos(b + w);
    GlueShape(b, w);
    GluedIsToken(w);
    MarkedGluedSplits(b, w + Eos);
    assert ReadLine((b + w) + "\n", false, false, lower) == Split(("<bos> " + b) + (w + Eos));
  }

  /** The end marker appended after `w` stays with `w`. */
  lemma GlueShape(b: string, w: string)
    ensures ("<bos> " + (b + w)) + Eos == ("<bos> " + b) + (w + Eos)
  {
  }

  lemma TokenHasNoNewline(b: string, w: string)
    requires '\n' !in b && IsToken(w)
    ensures '\n' !in b + w
  {
    assert IsSpace('\n');
  }

  lemma GluedIsToken(w: string)
    requires IsToken(w)
    ensures IsToken(w + Eos)
  {
    var g := w + Eos;
    EosIsToken();
    forall i | 0 <= i < |g| ensures !IsSpace(g[i]) {
      if i < |w| { assert g[i] == w[i]; } else { assert g[i] == Eos[i - |w|]; }
    }
  }

  /** The marked line, with the glued last word after whitespace or right
      after the marker, splits into the marker, the body's words and the
      glued word. */
  lemma MarkedGluedSplits(b: string, g: string)
    requires IsToken(g)
    requires |b| == 0 || IsSpace(b[|b| - 1])
    ensures Split(("<bos> " + b) + g) == [Bos] + Split(b) + [g]
  {
    var c := "<bos> " + b;
    assert |c| > 0 && IsSpace(c[|c| - 1]);
    SplitAppend(c, g);
    MarkedSplits(b);
    SplitSingle(g);
  }

  lemma MarkedSplits(b: string)
    ensures Split("<bos> " + b) == [Bos] + Split(b)
  {
    assert "<bos> " + b == Bos + (" " + b);
    BosIsToken();
    SplitTokenSpace(Bos, b);
  }

  lemma SplitSingle(g: string)
    requires IsToken(g)
    ensures Split(g) == [g]
  {
    assert g + "" == g;
    SplitRun(g, "");
  }

  /** A label line, as `generate_labels` writes it, reads back as the start
      marker, the words of the shortened compression text, the full stop and
      the end marker. */
  lemma ReadLabelLine(text: string, lower: char -> char)
    requires var body := if |text| == 0 then "" else text[..|text| - 1]; '\n' !in body
    ensures var body := if |text| == 0 then "" else text[..|text| - 1];
      ReadLine(GenerateLabel(text), false, false, lower) == [Bos] + Split(body) + [".", Eos]
  {
    var body := if |text| == 0 then "" else text[..|text| - 1];
    assert GenerateLabel(text) == (body + " . ") + "\n";
    assert ReadLine((body + " . ") + "\n", false, false, lower)
        == Split("<bos> " + ReplaceNewlines((body + " . ") + "\n"));
    MarkedEndsWithEos(body + " . ");
    MarkedLabelSplits(body);
  }

  /** The marked label line splits into the marker, the body's words, the
      full stop and the end marker. */
  lemma MarkedLabelSplits(body: string)
    ensures Split(("<bos> " + (body + " . ")) + Eos) == [Bos] + Split(body) + [".", Eos]
  {
    var c := "<bos> " + (body + " . ");
    assert c == Bos + (" " + (body + " . "));
    assert c[|c| - 1] == ' ';
    BosIsToken();
    SplitTokenSpace(Bos, body + " . ");
    SplitEndsWithEos(c);
    SplitBodyStop(body);
  }

  /** The shortened text followed by " . " splits into its words and ".". */
  lemma SplitBodyStop(body: string)
    ensures Split(body + " . ") == Split(body) + ["."]
  {
    assert body + " . " == (body + " ") + ". ";
    SplitAppend(body + " ", ". ");
    SplitTrailingSpace(body);
    SplitStop();
  }

  lemma SplitStop()
    ensures Split(". ") == ["."]
  {
    assert IsToken(".") by { assert !IsSpace("."[0]); }
    assert ". " == "." + " ";
    SplitRun(".", " ");
    SplitSpace(' ', "");
    assert [' '] + "" == " ";
  }

  /** A trailing space does not change the split. */
  lemma {:induction false} SplitTrailingSpace(s: string)
    ensures Split(s + " ") == Split(s)
    decreases |s|
  {
    if |s| == 0 {
      assert s + " " == [' '] + "";
      SplitSpace(' ', "");
    } else if IsSpace(s[0]) {
      assert (s + " ")[1..] == s[1..] + " ";
      SplitTrailingSpace(s[1..]);
    } else {
      var k := RunLength(s);
      var x := s[..k];
      var t := s[k..];
      LeadingRun(s);
      assert s + " " == x + (t + " ");
      assert IsSpace((t + " ")[0]);
      SplitRun(x, t + " ");
      SplitTrailingSpace(t);
    }
  }

  lemma EosEndsTokens(ca: string, replaceInt: bool)
    requires |ca| > 0 && IsSpace(ca[|ca| - 1])
    ensures var tokens := Split(Normalized(ca + Eos, replaceInt));
      |tokens| > 0 && tokens[|tokens| - 1] == Eos
  {
    SplitEndsWithEos(ca);
    EosIsToken();
    var n := |Split(ca + Eos)|;
    NormalizedKeepsMarker(ca + Eos, replaceInt, n - 1, Eos);
  }

  lemma LowerKeepsSpace(a: string, toLower: bool, lower: char -> char)
    requires toLower ==> LowerKeepsMarkers(lower)
    requires |a| > 0 && IsSpace(a[|a| - 1])
    ensures var ca := Cased(a, toLower, lower); |ca| > 0 && IsSpace(ca[|ca| - 1])
  {
  }

  lemma MarkedEndsWithEos(body: string)
    requires '\n' !in body
    ensures "<bos> " + ReplaceNewlines(body + "\n") == ("<bos> " + body) + Eos
  {
    ReplaceNewlinesAppend(body, "\n");
    assert ReplaceNewlines("\n") == Eos;
  }

  lemma CasedEndsWithEos(a: string, toLower: bool, lower: char -> char)
    requires toLower ==> LowerKeepsMarkers(lower)
    ensures Cased(a + Eos, toLower, lower) == Cased(a, toLower, lower) + Eos
  {
    if toLower {
      var e := Eos;
      assert lower(e[0]) == e[0] && lower(e[1]) == e[1] && lower(e[2]) == e[2]
          && lower(e[3]) == e[3] && lower(e[4]) == e[4];
      assert LowerAll(a + Eos, lower) == LowerAll(a, lower) + Eos;
    }
  }

  /** Whitespace before the end marker makes the marker the last token. */
  lemma SplitEndsWithEos(ca: string)
    requires |ca| > 0 && IsSpace(ca[|ca| - 1])
    ensures Split(ca + Eos) == Split(ca) + [Eos]
  {
    EosIsToken();
    SplitRun(Eos, "");
    assert Eos + "" == Eos;
    SplitAppend(ca, Eos);
  }

  // ---- writing a line and reading it back ----

  lemma {:induction false} SplitTerminated(tokens: seq<string>, tail: string)
    requires forall t | t in tokens :: IsToken(t)
    ensures Split(Terminated(tokens) + tail) == tokens + Split(tail)
  {
    if |tokens| == 0 {
      assert Terminated(tokens) + tail == tail;
    } else {
      var rest := Terminated(tokens[1..]) + tail;
      assert forall t | t in tokens[1..] :: t in tokens;
      SplitTerminated(tokens[1..], tail);
      TerminatedCons(tokens, tail);
      assert tokens[0] in tokens;
      SplitTokenSpace(tokens[0], rest);
      Seqs.ConsAppend(tokens, Split(tail));
    }
  }

  lemma TerminatedCons(tokens: seq<string>, tail: string)
    requires |tokens| > 0
    ensures Terminated(tokens) + tail == tokens[0] + (" " + (Terminated(tokens[1..]) + tail))
  {
    var r := Terminated(tokens[1..]);
    assert Terminated(tokens) == tokens[0] + " " + r;
    Seqs.Associate(tokens[0], " ", r, tail);
  }

  /** A token followed by one space is split off as one piece. */
  lemma SplitTokenSpace(x: string, rest: string)
    requires IsToken(x)
    ensures Split(x + (" " + rest)) == [x] + Split(rest)
  {
    assert IsSpace((" " + rest)[0]);
    SplitRun(x, " " + rest);
    SplitSpace(' ', rest);
  }

  lemma {:induction false} TerminatedHasNoNewline(tokens: seq<string>)
    requires forall t | t in tokens :: IsToken(t)
    ensures '\n' !in Terminated(tokens)
  {
    if |tokens| > 0 {
      TerminatedHasNoNewline(tokens[1..]);
      assert tokens[0] in tokens;
      assert IsSpace('\n');
    }
  }

  /** Writing a segment line and reading it back without lowering or number
      replacement yields the start marker, the selected fields in order and the
      end marker, provided every written field is a nonempty whitespace-free
      string; in particular the line carries 2 + flags * |data| tokens. */
  lemma WriteThenReadLine(data: seq<Segment>, keepWord: bool, keepPos: bool, keepDep: bool, lower: char -> char)
    requires forall t | t in SelectedFields(data, keepWord, keepPos, keepDep) :: IsToken(t)
    ensures ReadLine(WriteLine(data, keepWord, keepPos, keepDep), false, false, lower)
         == [Bos] + SelectedFields(data, keepWord, keepPos, keepDep) + [Eos]
    ensures |ReadLine(WriteLine(data, keepWord, keepPos, keepDep), false, false, lower)|
         == 2 + FlagCount(keepWord, keepPos, keepDep) * |data|
  {
    var fields := SelectedFields(data, keepWord, keepPos, keepDep);
    WriteLineLaysOutFields(data, keepWord, keepPos, keepDep);
    MarkTerminatedLine(fields);
    SplitMarkedFields(fields);
  }

  /** Splitting the marked, terminated fields recovers them between the markers. */
  lemma SplitMarkedFields(fields: seq<string>)
    requires forall t | t in fields :: IsToken(t)
    ensures Split(Terminated([Bos] + fields) + Eos) == [Bos] + fields + [Eos]
  {
    BosIsToken();
    SplitTerminated([Bos] + fields, Eos);
    EosIsToken();
    SplitRun(Eos, "");
    assert Eos + "" == Eos;
  }

  /** Marking a line of terminated tokens gives the terminated tokens behind
      the start marker, followed by the end marker. */
  lemma MarkTerminatedLine(fields: seq<string>)
    requires forall t | t in fields :: IsToken(t)
    ensures "<bos> " + ReplaceNewlines(Terminated(fields) + "\n") == Terminated([Bos] + fields) + Eos
  {
    TerminatedHasNoNewline(fields);
    ReplaceNewlinesAppend(Terminated(fields), "\n");
    assert ReplaceNewlines("\n") == Eos;
    assert ([Bos] + fields)[1..] == fields;
  }

  /** Reading back the words-only file gives the forms between the markers. */
  lemma WriteThenReadForms(data: seq<Segment>, lower: char -> char)
    requires forall i | 0 <= i < |data| :: IsToken(data[i].form)
    ensures var forms := seq(|data|, i requires 0 <= i < |data| => data[i].form);
      ReadLine(WriteLine(data, true, false, false), false, false, lower) == [Bos] + forms + [Eos]
  {
    FormsAreSelected(data);
    WriteThenReadLine(data, true, false, false, lower);
  }

  lemma {:induction false} FormsAreSelected(data: seq<Segment>)
    ensures SelectedFields(data, true, false, false) == seq(|data|, i requires 0 <= i < |data| => data[i].form)
  {
    if |data| > 0 {
      FormsAreSelected(data[1..]);
    }
  }
}
